=== FILE: README.md ===
# School administration frontend: a Dafny model of its logic

This project models the logic layer of the React frontend in `frontend-clase/src`. The frontend manages students (alumnos), teachers (maestros), academic programs (carreras), user accounts and re-enrollments (reinscripciones). The markup is not modelled. What remains is:

- **Session store and `authFetch`.** The model follows `services/authService.js`.
  - Browser storage is two optional slots, `user` and `token`.
  - `login` and `register` overwrite both slots together, and `logout` removes both.
  - `authFetch` refuses to send without a token. It merges its default headers under the caller's headers. It throws on every non-ok reply.
- **List logic of every screen.**
  - Case-insensitive substring search over fixed field lists.
  - Row selection sets: toggle, select-all, the single selection of the program screen, and the re-enrollment screen's action target.
  - What a single delete and a bulk edit or delete do to the selection.
  - The bulk fan-out (`Promise.all`) becomes an ordered fold over one verdict per id.
- **Paging of the re-enrollment list.**
  - Four rows a page through `Array.prototype.slice`.
  - `Math.ceil` for the page count.
  - The five-button window of `getPageNumbers`.
  - The previous/next buttons.
  - The reset to page 1 on a new search.
- **Forms.**
  - Required-field checks.
  - The intake form's email pattern and its phone rule of at least ten digits.
  - Trimming and the fixed `estado`.
  - The password confirmation and the role-dependent body of the sign-up page.
  - The edit prefills.
- **The student intake of the re-enrollment screen.** It creates a student and then the student's first enrollment. The model has two versions of it, as written and as evidently intended (see Findings).

The backend is an oracle. Every operation that talks to it takes the reply as a parameter (`AuthService.Reply`: no response, or an ok flag, a status and a JSON-or-not body). It returns the requests it sent and what the screen does next. Request bodies are the value given to `JSON.stringify` (`AuthService.JsonValue`). Clocks enter as the ISO text of the current time. Browser storage is the `AuthService.Store` value passed in and returned.

Modules:

- `Base`: Option, Result, the error kinds and `||` defaulting.
- `Text`: ASCII lower-casing, the JavaScript whitespace class and `trim`, `includes`, digit stripping, and the email pattern.
- `Selection`: filtering, finding, selection sets and the bulk fold.
- `AuthService`: `authService.js`.
- `Students`: `alumnos.jsx`.
- `Teachers`: `maestros.jsx`.
- `Programs`: `carreras.jsx`.
- `Users`: `Dashboard.jsx`.
- `Registration`: `Register.jsx`.
- `Pagination` and `Enrollment`: `Reinscripcion.jsx`.

## Model

| member | source | states |
|---|---|---|
| Base.OrDefault | frontend-clase/src/services/authService.js:16 | `message \|\| fallback` gives the message only when it is present and non-empty, and the fallback otherwise |
| Text.LowerChar | frontend-clase/src/pages/alumnos.jsx:260 | the lower-cased character is never upper case; an upper-case ASCII letter moves by 32, and every other character is unchanged |
| Text.Lower | frontend-clase/src/pages/alumnos.jsx:260-264 | `toLowerCase` keeps the length and lower-cases each character in place |
| Text.LowerIsLower | frontend-clase/src/pages/carreras.jsx:261 | lower-cased text holds no upper-case letter, and lower-casing it again changes nothing |
| Text.TrimStart | frontend-clase/src/pages/alumnos.jsx:179 | the result is a suffix of the input, what was cut is all whitespace, and the result does not start with whitespace |
| Text.TrimEnd | frontend-clase/src/pages/alumnos.jsx:179 | the result is a prefix of the input, what was cut is all whitespace, and the result does not end with whitespace |
| Text.Trim | frontend-clase/src/pages/alumnos.jsx:179-183 | `trim` gives a contiguous infix of the input with no whitespace at either end; it is empty exactly when the input is all whitespace |
| Text.TrimIsInfix | frontend-clase/src/pages/alumnos.jsx:179 | the trimmed text occurs in the input right after the leading whitespace |
| Text.TrimEmptyIffBlank | frontend-clase/src/pages/Reinscripcion.jsx:356-357 | trimming yields the empty string exactly for whitespace-only text |
| Text.TrimUnpadded | frontend-clase/src/pages/Reinscripcion.jsx:254 | text with no whitespace at either end is its own trim |
| Text.ContainsIff | frontend-clase/src/pages/alumnos.jsx:262-264 | the left-to-right scan used for `includes` holds exactly when the needle occurs at some position of the haystack |
| Text.ContainsSameLength | frontend-clase/src/pages/carreras.jsx:317 | between strings of equal length, `includes` is equality |
| Text.ContainsEmpty | frontend-clase/src/pages/alumnos.jsx:259-266 | every string includes the empty string |
| Text.Digits | frontend-clase/src/pages/Reinscripcion.jsx:246 | `replace(/\D/g, '')` keeps only digits, is no longer than its input, and keeps every digit character the input has |
| Text.DigitsOfDigits | frontend-clase/src/pages/Reinscripcion.jsx:246 | a string made only of digits is unchanged by the replacement |
| Text.DigitsAppend | frontend-clase/src/pages/Reinscripcion.jsx:246 | removing non-digits distributes over concatenation |
| Text.DigitsOfBlank | frontend-clase/src/pages/Reinscripcion.jsx:246 | whitespace holds no digits |
| Text.TrimKeepsDigits | frontend-clase/src/pages/Reinscripcion.jsx:246-255 | the phone's digits are the same before and after `trim`: cutting the leading whitespace and then the trailing whitespace removes no digit |
| Text.IndexOf | frontend-clase/src/pages/Reinscripcion.jsx:117 | the position of the first occurrence of a character, or the length when there is none, with no occurrence before it |
| Text.ValidEmailIff | frontend-clase/src/pages/Reinscripcion.jsx:239-240 | the scan-based check accepts exactly the strings that split as non-empty `[^\s@]` parts around one `@` and a later `.`, which is the language of `^[^\s@]+@[^\s@]+\.[^\s@]+$` |
| Text.ValidEmailIsTrimmed | frontend-clase/src/pages/Reinscripcion.jsx:240-254 | an address the pattern accepts has no surrounding whitespace, so `trim` leaves it unchanged |
| Selection.Filter | frontend-clase/src/pages/alumnos.jsx:259-266 | `filter` keeps exactly the elements that pass, in their original order, as a subsequence of the list, and each passing element as many times as the list has it |
| Selection.FilterKeepsAll | frontend-clase/src/pages/alumnos.jsx:259-266 | when every element passes, the filtered list is the list |
| Selection.FilterIdempotent | frontend-clase/src/pages/alumnos.jsx:259-266 | filtering the filtered list again changes nothing |
| Selection.Find | frontend-clase/src/pages/alumnos.jsx:123 | `find` returns nothing exactly when no element passes, and otherwise the first element that passes |
| Selection.SetOf | frontend-clase/src/pages/alumnos.jsx:248 | `new Set(ids)` holds exactly the listed ids |
| Selection.Toggle | frontend-clase/src/pages/alumnos.jsx:233-243 | the clicked id flips membership and every other id keeps its membership; `handleSelectMaestro` (maestros.jsx:184-194) and `handleSelectUser` (Dashboard.jsx:95-105) are the same handler |
| Selection.ToggleTwice | frontend-clase/src/pages/alumnos.jsx:233-243 | toggling one id twice restores the selection |
| Selection.SelectAll | frontend-clase/src/pages/alumnos.jsx:245-252 | checked selects exactly the given ids; unchecked selects none |
| Selection.IdsOf | frontend-clase/src/pages/alumnos.jsx:247 | `map(x => x._id)` gives one id per row, in row order |
| Selection.SelectRows | frontend-clase/src/pages/alumnos.jsx:245-252 | the header checkbox over a list of rows: checked selects exactly the ids of those rows, unchecked selects none; each screen passes the rows it selects from (filtered or not) |
| Selection.RowClick | frontend-clase/src/pages/alumnos.jsx:254-257 | a click on the row's own checkbox changes nothing (the checkbox handler already toggled); any other click flips that row only; the users screen has the same handler (Dashboard.jsx:116-119) |
| Selection.Prune | frontend-clase/src/pages/alumnos.jsx:69-73 | after a delete, that id is gone and every other id keeps its membership |
| Selection.Batch | frontend-clase/src/pages/alumnos.jsx:105-115 | one request per id in order; `Promise.all` resolves exactly when every verdict is ok; the applied ids are exactly the accepted ones, with no rollback |
| Selection.BatchOkAppliesAll | frontend-clase/src/pages/alumnos.jsx:108-113 | a batch that resolved applied every requested id |
| Selection.AfterBatch | frontend-clase/src/pages/alumnos.jsx:113-118 | the selection is emptied when the batch resolved and kept when it rejected |
| Selection.PartialFailureKeepsApplied | frontend-clase/src/pages/alumnos.jsx:108-118 | for any batch in which one id is accepted and another rejected, the batch rejects and the selection stays, but the accepted id is applied anyway |
| AuthService.Authenticate | frontend-clase/src/services/authService.js:4-45 | a failure leaves storage unchanged; success needs an ok JSON reply, returns its data and overwrites both keys; a non-ok JSON reply throws its message or the fallback |
| AuthService.Login | frontend-clase/src/services/authService.js:4-24 | `login` succeeds exactly on an ok JSON reply; it then stores that reply's user and token; otherwise it throws the backend message or 'Error en el inicio de sesión' and writes nothing; it keeps user-present-iff-token-present |
| AuthService.Register | frontend-clase/src/services/authService.js:26-46 | `register` has the same contract as login, with the fallback 'Error en el registro' |
| AuthService.Logout | frontend-clase/src/services/authService.js:48-51 | both keys are absent afterwards |
| AuthService.CurrentUser | frontend-clase/src/services/authService.js:53-59 | null when the key is absent, the stored record when it holds one, and a parse failure when it holds the text "undefined" |
| AuthService.AuthenticateThenRead | frontend-clase/src/services/authService.js:41-63 | after a successful login or register whose reply has both fields, `getCurrentUser` and `getToken` return them |
| AuthService.LogoutThenRead | frontend-clase/src/services/authService.js:48-63 | after logout, `getCurrentUser` is null and `getToken` is absent |
| AuthService.RunKeepsConsistent | frontend-clase/src/services/authService.js:19-51 | any sequence of login, register and logout keeps "user present iff token present" |
| AuthService.MergeHeaders | frontend-clase/src/services/authService.js:72-86 | the merged headers have the caller's keys plus Authorization and Content-Type; each caller key keeps the caller's value; a default applies only when the caller left out its key |
| AuthService.AuthFetch | frontend-clase/src/services/authService.js:66-93 | no request exactly when there is no token, with 'No hay token de autenticación'; the request carries the merged headers; a reply is returned exactly when it is ok; a non-ok reply throws its message or 'Error en la petición' |
| AuthService.LoginThenFetch | frontend-clase/src/services/authService.js:19-86 | after a login that stored a non-empty token, `authFetch` sends `Authorization: Bearer <token>` unless the caller overrides it |
| AuthService.LogoutThenFetch | frontend-clase/src/services/authService.js:48-70 | after logout, `authFetch` throws 'No hay token de autenticación' without sending |
| Students.FilterStudents | frontend-clase/src/pages/alumnos.jsx:259-266 | the shown students are exactly those whose nombre, apellido or email contains the lower-cased term, in list order; each shown row appears as often as in the list |
| Students.EmptyTermKeepsAll | frontend-clase/src/pages/alumnos.jsx:259-266 | the empty term shows every student in order |
| Students.SearchIgnoresCase | frontend-clase/src/pages/alumnos.jsx:260-264 | a term and its lower-cased form show the same students |
| Students.SelectAll | frontend-clase/src/pages/alumnos.jsx:245-252 | checked selects exactly the ids of the filtered students; unchecked selects none |
| Students.CreateRequest | frontend-clase/src/pages/alumnos.jsx:168-186 | no request exactly when nombre, apellido, email or carrera is empty; otherwise the body has nombre, apellido, telefono and email trimmed, genero and carrera as chosen, and estado 'activo' |
| Students.UpdateRequest | frontend-clase/src/pages/alumnos.jsx:136-151 | no request exactly when a required field is empty; otherwise the form is sent untrimmed |
| Students.SubmitCreate | frontend-clase/src/pages/alumnos.jsx:168-219 | an accepted create closes the form and resets it to the blank form; a refused or unsent create leaves the screen as it was |
| Students.SubmitUpdate | frontend-clase/src/pages/alumnos.jsx:136-166 | the edited id and form are sent when the required fields are there; success ends the edit and blanks the form; otherwise the screen is unchanged |
| Students.Edit | frontend-clase/src/pages/alumnos.jsx:121-134 | the edited id is remembered; the form takes the six fields of the first student with that id; an unknown id leaves the form; no other field changes |
| Students.AfterDelete | frontend-clase/src/pages/alumnos.jsx:61-77 | a successful delete removes only that id from the selection and changes nothing else; a failed one changes nothing |
| Students.AfterBulkEdit | frontend-clase/src/pages/alumnos.jsx:79-103 | success empties the selection, leaves bulk mode and resets the bulk form; failure changes nothing |
| Students.AfterBulkDelete | frontend-clase/src/pages/alumnos.jsx:105-119 | success empties the selection; failure changes nothing |
| Students.BulkDeleteClearsOnlyOnSuccess | frontend-clase/src/pages/alumnos.jsx:105-119 | the fan-out requests exactly the selected ids, and the selection ends empty only when every delete succeeded (or it was empty) |
| Teachers.FilterTeachers | frontend-clase/src/pages/maestros.jsx:205-213 | the shown teachers are exactly those whose nombre, apellido, email or especialidad contains the lower-cased term, in list order; each shown row appears as often as in the list |
| Teachers.EmptyTermKeepsAll | frontend-clase/src/pages/maestros.jsx:205-213 | the empty term shows every teacher in order |
| Teachers.SpecialtyAloneMatches | frontend-clase/src/pages/maestros.jsx:211 | for any list, a teacher whose especialidad alone contains the term is shown, as often as the list has it |
| Teachers.SelectAll | frontend-clase/src/pages/maestros.jsx:196-203 | checked selects exactly the ids of the filtered teachers; unchecked selects none |
| Teachers.CreateAreaFollowsSelection | frontend-clase/src/pages/maestros.jsx:340 | checking select-all over a non-empty result hides the create/edit area; unchecking shows it exactly to an admin; after a bulk delete an admin sees it exactly when the batch succeeded or nothing was selected |
| Teachers.Edit | frontend-clase/src/pages/maestros.jsx:112-125 | the edited id is remembered; all six form fields come from the first teacher with that id; an unknown id leaves the form; no other field changes |
| Teachers.AfterDelete | frontend-clase/src/pages/maestros.jsx:52-68 | a successful delete removes only that id from the selection and changes nothing else; a failed one changes nothing |
| Teachers.AfterBulkEdit | frontend-clase/src/pages/maestros.jsx:70-94 | success empties the selection, leaves bulk mode and resets the bulk form to genero 'masculino' with every other field empty, and keeps the edit form and the create toggle; failure changes nothing |
| Teachers.AfterBulkDelete | frontend-clase/src/pages/maestros.jsx:96-110 | success empties the selection and changes nothing else; failure changes nothing |
| Programs.FromBackend | frontend-clase/src/pages/carreras.jsx:105-109 | `tieneAlumnos` holds exactly when `alumnos` is a non-empty array; `numAlumnos` is the array's length, or 0 with no array; the other fields are copied |
| Programs.FlagAgreesWithCount | frontend-clase/src/pages/carreras.jsx:107-108 | on a mapped record, `tieneAlumnos` holds exactly when `numAlumnos > 0` |
| Programs.MapAll | frontend-clase/src/pages/carreras.jsx:105-109 | every backend record maps to one row, in order |
| Programs.Predefined | frontend-clase/src/pages/carreras.jsx:120-123 | the fallback list is the six built-in programs, numbered 1 to 6 |
| Programs.Builtin | frontend-clase/src/pages/carreras.jsx:7-56 | built-in program n has id `predefinida-n`, 4 years, modality 'Presencial', and claims students while counting 0 |
| Programs.PredefinedIdsDistinct | frontend-clase/src/pages/carreras.jsx:120-123 | the six built-in ids are pairwise distinct |
| Programs.PredefinedClaimStudentsWithoutCount | frontend-clase/src/pages/carreras.jsx:7-56 | every built-in row has `tieneAlumnos` true and `numAlumnos` 0, so these rows break the agreement mapped rows keep |
| Programs.Load | frontend-clase/src/pages/carreras.jsx:87-133 | backend rows are used exactly when the request went out and returned an ok reply whose JSON is a non-empty array; every other outcome falls back to the built-in list |
| Programs.NoTokenShowsBuiltins | frontend-clase/src/pages/carreras.jsx:94-125 | without a token the screen shows the six built-in programs |
| Programs.DurationText | frontend-clase/src/pages/carreras.jsx:316 | `duracion.toString()` is a non-empty digit string without a leading zero |
| Programs.DurationTextValue | frontend-clase/src/pages/carreras.jsx:316 | the duration's text reads back as the same number |
| Programs.SearchInput | frontend-clase/src/pages/carreras.jsx:260-262 | the stored search term is the input lower-cased character by character, so it is always lower case |
| Programs.FilterPrograms | frontend-clase/src/pages/carreras.jsx:308-319 | the shown programs are exactly those the search matches (every one for an empty term), in list order; each shown row appears as often as in the list |
| Programs.EmptyTermKeepsAll | frontend-clase/src/pages/carreras.jsx:309 | the empty term shows every program in order |
| Programs.SearchByLabel | frontend-clase/src/pages/carreras.jsx:317 | the label contains 'sin alumnos' exactly for rows without students, so searching 'sin alumnos' shows every listed row without students |
| Programs.SelectProgram | frontend-clase/src/pages/carreras.jsx:264-282 | clicking a selected program deselects it, closes the detail and clears the roster; clicking another makes the selection exactly that id and opens its detail and roster when the program is in the list |
| Programs.SelectLeavesOne | frontend-clase/src/pages/carreras.jsx:271-273 | after selecting an unselected program, exactly one program is selected |
| Programs.SelectAll | frontend-clase/src/pages/carreras.jsx:284-291 | checked selects the ids of every program, shown or not; unchecked selects none |
| Programs.SelectAllReachesHiddenRows | frontend-clase/src/pages/carreras.jsx:284-291 | any listed program the current search hides is still selected by select-all |
| Programs.AfterDelete | frontend-clase/src/pages/carreras.jsx:140-156 | a successful delete removes only that id from the selection and changes nothing else; a failed one changes nothing |
| Programs.AfterBulkEdit | frontend-clase/src/pages/carreras.jsx:158-180 | success empties the selection, leaves bulk mode and empties the four bulk fields; failure changes nothing |
| Programs.AfterBulkDelete | frontend-clase/src/pages/carreras.jsx:182-196 | success empties the selection and changes nothing else; failure changes nothing |
| Users.FilterUsers | frontend-clase/src/pages/Dashboard.jsx:121-125 | the shown users are exactly those whose username, role or id contains the lower-cased term, in list order; each shown row appears as often as in the list |
| Users.EmptyTermKeepsAll | frontend-clase/src/pages/Dashboard.jsx:121-125 | the empty term shows every user in order |
| Users.FoundById | frontend-clase/src/pages/Dashboard.jsx:124 | in any list, searching for a user's id shows that user |
| Users.SelectAll | frontend-clase/src/pages/Dashboard.jsx:107-114 | checked selects the ids of every user, shown or not; unchecked selects none |
| Users.DeleteUsers | frontend-clase/src/pages/Dashboard.jsx:71-93 | an empty selection sends nothing and changes nothing; otherwise one DELETE per selected id; the selection is emptied exactly when every delete succeeded and kept when any delete failed, and nothing else changes |
| Users.DistinctCard | frontend-clase/src/pages/Dashboard.jsx:79 | `Array.from` of a set lists as many ids as the set holds |
| Users.StartEdit | frontend-clase/src/pages/Dashboard.jsx:221-234 | with exactly one user selected and found in the list, the edit opens on the first selected user of the list, with its username and role and an empty password, and nothing else changes; otherwise the screen stays as it was |
| Users.SubmitCreate | frontend-clase/src/pages/Dashboard.jsx:39-53 | the form is sent unchanged when the username is filled in and, unless an edit is open, the password too; with no edit open a sent create always carries a password; success closes the form and resets it to username '', password '', role 'user'; the selection and the edit are unchanged |
| Users.SubmitUpdate | frontend-clase/src/pages/Dashboard.jsx:55-69 | the edited id and the form are sent unchanged when the username is filled in; the password may be empty; success ends the edit and resets the form; the selection and the create toggle are unchanged |
| Users.EditSendsEmptyPassword | frontend-clase/src/pages/Dashboard.jsx:58-61 | with one selected user in the list, the edit opens on a selected id and submitting it sends that id with an empty password rather than dropping the field |
| Users.CreateWhileEditingSendsEmptyPassword | frontend-clase/src/pages/Dashboard.jsx:148 | with the create form open, opening an edit on a selected user and then submitting the create form sends a create whose password is empty |
| Registration.PayloadOf | frontend-clase/src/pages/Register.jsx:56-71 | usuario becomes username and tipoUsuario becomes role; the personal fields are copied; carrera is present exactly for 'alumno' and especialidad exactly for 'maestro' |
| Registration.SamePayloadIff | frontend-clase/src/pages/Register.jsx:56-71 | two forms give the same body exactly when they agree on the sent fields, counting carrera only for 'alumno' and especialidad only for 'maestro' |
| Registration.Submit | frontend-clase/src/pages/Register.jsx:45-81 | submit first clears the error and sets loading; a password mismatch shows 'Las contraseñas no coinciden' and never calls register; success navigates to /dashboard; failure shows the thrown message; loading ends false on every path |
| Pagination.TotalPages | frontend-clase/src/pages/Reinscripcion.jsx:373 | `Math.ceil(n / 4)`: the smallest page count whose pages hold n rows |
| Pagination.SliceBound | frontend-clase/src/pages/Reinscripcion.jsx:372 | a `slice` bound counts from the end when negative and is clamped to the list |
| Pagination.JsSlice | frontend-clase/src/pages/Reinscripcion.jsx:372 | `slice(start, end)` is the segment between the normalised bounds, or empty when they cross |
| Pagination.PageItems | frontend-clase/src/pages/Reinscripcion.jsx:370-372 | page p shows at most four rows, namely rows (p-1)*4 to p*4 clamped to the list |
| Pagination.PageSizes | frontend-clase/src/pages/Reinscripcion.jsx:370-373 | every page up to the last has rows, every page before the last is full, and a page past the end is empty |
| Pagination.PagesUpToIsPrefix | frontend-clase/src/pages/Reinscripcion.jsx:370-372 | the first k pages laid end to end are the first 4k rows |
| Pagination.PagesCoverList | frontend-clase/src/pages/Reinscripcion.jsx:370-373 | pages 1 to the last, in order, are exactly the filtered list |
| Pagination.Range | frontend-clase/src/pages/Reinscripcion.jsx:389-391 | the counting loop yields lo, lo+1, ..., hi, and nothing when hi < lo |
| Pagination.PageNumbers | frontend-clase/src/pages/Reinscripcion.jsx:383-413 | every page when there are at most five; otherwise five consecutive pages within range; the current page is included exactly when it is in range, and centred away from the ends |
| Pagination.PushRange | frontend-clase/src/pages/Reinscripcion.jsx:389-391 | the push loop appends exactly lo..hi |
| Pagination.GetPageNumbers | frontend-clase/src/pages/Reinscripcion.jsx:383-413 | the three cases (near the start, near the end, in the middle) agree with the clamped five-page window |
| Pagination.NoEllipsis | frontend-clase/src/pages/Reinscripcion.jsx:939-941 | consecutive buttons never differ by more than one, so the ellipsis branch is never taken |
| Pagination.AfterClick | frontend-clase/src/pages/Reinscripcion.jsx:929-971 | 'Anterior' moves back at most one page and 'Siguiente' forward at most one; each does nothing when disabled; a number goes to that page |
| Pagination.ClickStaysInRange | frontend-clase/src/pages/Reinscripcion.jsx:929-971 | from a page in range, every button the pager offers lands on a page in range |
| Pagination.OnSearchInput | frontend-clase/src/pages/Reinscripcion.jsx:415-418 | the typed text becomes the term; a changed term sends the view to page 1; an unchanged one leaves it |
| Pagination.NewSearchShowsFirstPage | frontend-clase/src/pages/Reinscripcion.jsx:415-418 | after a new search, the rows shown are the first four of the new result |
| Enrollment.FilterStudents | frontend-clase/src/pages/Reinscripcion.jsx:355-367 | the shown students are exactly the matching ones, in list order; the fields are nombre, apellido, email and carrera lower-cased, telefono as stored, and "nombre apellido"; each shown row appears as often as in the list |
| Enrollment.BlankTermKeepsAll | frontend-clase/src/pages/Reinscripcion.jsx:356-357 | a whitespace-only term shows every student in order |
| Enrollment.FullNameMatch | frontend-clase/src/pages/Reinscripcion.jsx:365 | typing any listed student's "nombre apellido", in any letter case, finds that student |
| Enrollment.SelectStudent | frontend-clase/src/pages/Reinscripcion.jsx:75-89 | the student's id flips; adding makes the student the action target; removing clears the target only when it was that student |
| Enrollment.SelectTwice | frontend-clase/src/pages/Reinscripcion.jsx:75-89 | two clicks on an unselected student restore the selection and leave no target |
| Enrollment.SelectAll | frontend-clase/src/pages/Reinscripcion.jsx:91-98 | checked selects exactly the ids of the filtered students; unchecked selects none; the action target is untouched |
| Enrollment.DatePart | frontend-clase/src/pages/Reinscripcion.jsx:117 | `split('T')[0]` is the prefix before the first 'T', or all of the text |
| Enrollment.DatePartOfTimestamp | frontend-clase/src/pages/Reinscripcion.jsx:117 | the date part of an ISO timestamp is its date |
| Enrollment.Prefill | frontend-clase/src/pages/Reinscripcion.jsx:113-130 | the form copies the last record, with its date cut to the day and a missing note as ''; an empty history gives semestre '', today, 'activo' and '' |
| Enrollment.PrefillUsesNewest | frontend-clase/src/pages/Reinscripcion.jsx:113-120 | only the newest record decides the prefill |
| Enrollment.LoadPrefill | frontend-clase/src/pages/Reinscripcion.jsx:108-134 | the form becomes the prefill of the history exactly when the request went out and returned an ok JSON reply; on any failure the form is kept and the error reported |
| Enrollment.Validate | frontend-clase/src/pages/Reinscripcion.jsx:233-248 | the form passes exactly when the six required fields are filled in, the email matches the pattern and the phone has at least ten digits; each failure is reported in that order |
| Enrollment.StudentPayloadOf | frontend-clase/src/pages/Reinscripcion.jsx:251-259 | nombre, apellido, email and telefono are trimmed; genero, carrera and estado are copied |
| Enrollment.SentDataStillValid | frontend-clase/src/pages/Reinscripcion.jsx:238-259 | for a form that passed, the email sent is the one checked and it matches the pattern; the trimmed phone keeps its digits, so still has at least ten |
| Enrollment.PostStudent | frontend-clase/src/pages/Reinscripcion.jsx:263-276 | the intake continues exactly when there is a token and the create reply is ok JSON, with the new id and the POST that made it; otherwise it stops with an error, the form kept and open, having sent at most that POST |
| Enrollment.Cleanup | frontend-clase/src/pages/Reinscripcion.jsx:304-310 | the compensating delete is sent when there is a token; the student is gone exactly when that reply was ok; its failure is swallowed |
| Enrollment.EnrollAsWritten | frontend-clase/src/pages/Reinscripcion.jsx:280-312 | as written, exactly two requests go out, both POSTs; the intake succeeds exactly on an ok JSON enrollment reply; the student is orphaned exactly when that reply was not ok, and the error is authFetch's |
| Enrollment.SubmitAsWritten | frontend-clase/src/pages/Reinscripcion.jsx:250-327 | a validated intake sends only POSTs; it succeeds exactly when both replies are ok JSON, sending the student and then the enrollment and resetting the form; a rejected enrollment orphans the student |
| Enrollment.IntakeAsWritten | frontend-clase/src/pages/Reinscripcion.jsx:229-334 | a refused form sends nothing and shows the reason's message; a valid form proceeds to the two requests |
| Enrollment.CompensationNeverRuns | frontend-clase/src/pages/Reinscripcion.jsx:302-312 | no input makes the intake as written send anything but POSTs, so the compensating DELETE is dead code |
| Enrollment.FailedEnrollmentLeavesStudent | frontend-clase/src/pages/Reinscripcion.jsx:291-312 | a created student whose enrollment is rejected stays orphaned after two requests; the error shown is authFetch's, not 'Error al crear la reinscripción inicial' |
| Enrollment.EnrollCorrected | frontend-clase/src/pages/Reinscripcion.jsx:291-312 | when the enrollment fails, the new student is deleted, the delete's own failure is swallowed, and the enrollment error is rethrown; otherwise it behaves as written |
| Enrollment.SubmitCorrected | frontend-clase/src/pages/Reinscripcion.jsx:250-327 | success is the same as written; a failed enrollment after a successful create sends the student POST, the enrollment POST and the DELETE, and leaves no orphan exactly when the DELETE succeeded |
| Enrollment.IntakeCorrected | frontend-clase/src/pages/Reinscripcion.jsx:229-334 | the same validation as written, then the corrected requests |
| Enrollment.CorrectedRemovesStudent | frontend-clase/src/pages/Reinscripcion.jsx:302-312 | after a rejected enrollment, the corrected intake's third request deletes that student; it shows the same error as written; it orphans the student only when the delete fails |
| Enrollment.SameUnlessEnrollmentFails | frontend-clase/src/pages/Reinscripcion.jsx:302-327 | whenever the enrollment reply is ok, the corrected intake and the intake as written agree |

## Left out

- Rendering is not modelled: JSX, CSS, `window.confirm`, `alert`, `console` output and the order in which React applies state updates. A cancelled confirm is an operation not called.
- `fetch`, HTTP and `localStorage` are not modelled. Replies are parameters, storage is a value, and `JSON.stringify`/`JSON.parse` text is not modelled. Bodies are the value handed to `JSON.stringify`.
- `Promise.all` concurrency is folded in order over one verdict per id. When it rejects early, the other requests are still in flight and their effects stand. The model reflects that as "no rollback", not as timing.
- The list loads (`fetchAlumnos`, `fetchMaestros`, `fetchUsers`, `fetchAlumnosCarrera`) and the reload after every success are not modelled. The lists are inputs. `Programs.SelectProgram` only names the roster fetch it triggers.
- The teacher and program create/update handlers (maestros.jsx:127-171, carreras.jsx:198-251) are not modelled. They send the form as typed with no check of their own.
- maestros.jsx:153 passes the plain text `'${API_URL}/maestros'` rather than an interpolated URL. It is a configuration slip in a handler this model leaves out.
- The re-enrollment create, update and delete handlers (Reinscripcion.jsx:136-227) and `handleReinscribir` (343-353) are not modelled. The model stops at the prefill that feeds that form. The PDF export (Reinscripcion.jsx:658-795) is a foreign library plus page layout.
- The re-enrollment search box (Reinscripcion.jsx:826-830) stores the text as typed. `handleSearch` (71-73) is never attached, so `Pagination.OnSearchInput` follows the inline handler. The filter lower-cases and trims the term itself.
- Pagination.OnSearchInput: the reset to page 1 runs in an effect after the render that shows the new term. The one intermediate render, which has the new filter and the old page, is not modelled.
- Pagination.PageSizes: a page left beyond the last page (after the list shrinks) shows no rows. The source does not clamp it, and neither does the model. The "Mostrando" line is not modelled.
- `toLowerCase` is modelled for ASCII letters only (`Text.Lower`). Other letters keep their case.
- Programs.DurationText: durations are taken to be whole non-negative numbers. The backend may return a fraction (`toString` gives "2.5"), a string kept as typed in the number input (carreras.jsx:345-350, which keeps a leading zero such as "04"), or no value at all, on which `toString` at carreras.jsx:316 throws. None of these is modelled.
- Enrollment.Matches assumes the student fields are present strings. The optional chaining at Reinscripcion.jsx:360-364 matters only for records that lack a field.
- Enrollment.Prefill and Enrollment.FirstEnrollment take dates as ISO text. `new Date(x).toISOString()` of a stored date is taken to return that text, and the current time is a parameter.
- Enrollment.PostStudent assumes the create reply carries `_id`. A reply without it would send `alumnoId: undefined`.
- Registration.Submit takes the outcome of `register` as a parameter. The authentication context that performs it is not part of this model.
- Users.CanSubmit stands for the browser's `required` checks on the form (Dashboard.jsx:138-158). The password is required only while no edit is open (`required={!editingId}`), for the create form too. The role select always has a value.
- Students.FilterStudents, Teachers.FilterTeachers and Users.FilterUsers assume every searched field is a present string. The source calls `toLowerCase` on them without `?.` (alumnos.jsx:260-264, maestros.jsx:205-213, Dashboard.jsx:121-125), so a record missing one of those fields throws during render. The model shows or hides that row instead.
- Students.SubmitCreate collapses the reply to an `accepted` flag, and so do the other screens' single and bulk handlers. The alert texts of failures are not modelled.
- Empty-password elision on user edit is not modelled. The handler sends the form as it is (Dashboard.jsx:58-61), and `Users.EditSendsEmptyPassword` states exactly that.

## Findings

| source | as written | input that shows it | evidently intended | confidence | as-written member | corrected member |
|---|---|---|---|---|---|---|
| frontend-clase/src/pages/Reinscripcion.jsx:302-312 | the compensating DELETE sits behind `!reinscripcionRes.ok`; `authFetch` (authService.js:88-91) has already thrown on every non-ok reply, so the branch never runs | the student POST returns 201 with `_id`; the enrollment POST returns 400 with `{message: "x"}` | a failed enrollment deletes the student just created, swallows a failed delete, and rethrows the enrollment error | not executed | Enrollment.IntakeAsWritten | Enrollment.IntakeCorrected |

In the example, the intake as written sends two POSTs and shows "x". It leaves the student with no enrollment. `Enrollment.CompensationNeverRuns` and `Enrollment.FailedEnrollmentLeavesStudent` prove this of the version as written. `Enrollment.CorrectedRemovesStudent` and `Enrollment.SameUnlessEnrollmentFails` prove the intended behaviour of the corrected one.

=== FILE: auth_service.dfy ===
/**
 * The session store and the authenticated-request gateway of
 * `services/authService.js`.
 *
 * Browser storage holds two keys, `user` and `token`; here they are the two
 * slots of `Store`. The backend is an oracle: every operation that talks to it
 * takes the reply it gives as a parameter and returns what the client does
 * with it, including the request it sent (or that it sent none).
 */
module AuthService {
  import opened Base

  /** The user record the backend returns (`data.user`). */
  datatype User = User(id: string, username: string, role: string)

  /** What `localStorage.setItem('user', JSON.stringify(data.user))` leaves
      behind: the serialised record, or the literal text "undefined" when the
      reply had no `user` field (JSON.stringify(undefined) is undefined, which
      setItem stores as that text). */
  datatype StoredUser = Serialized(user: User) | UndefinedText

  /** The two storage keys; `None` is a key that is not set. */
  datatype Store = Store(user: Option<StoredUser>, token: Option<string>)

  const EmptyStore := Store(None, None)

  /** No partial session: `user` is set exactly when `token` is. */
  predicate Consistent(s: Store) {
    s.user.Some? <==> s.token.Some?
  }

  /** The JSON body of a reply: either not JSON at all, or an object with an
      optional `message` and the endpoint-specific content `data`. */
  datatype Body<D> = NotJson | Json(message: Option<string>, data: D)

  /** The outcome of one `fetch`: it rejected (no response), or a response
      whose `ok` flag is true for a 2xx status. */
  datatype Reply<D> = NoResponse | Reply(ok: bool, status: int, body: Body<D>)

  /** The `user` and `token` fields of a login or registration reply. */
  datatype Credentials = Credentials(user: Option<User>, token: Option<string>)

  const LoginFailed := "Error en el inicio de sesión"
  const RegisterFailed := "Error en el registro"
  const NoToken := "No hay token de autenticación"
  const RequestFailed := "Error en la petición"

  /** What setItem stores for the token field (`undefined` becomes text). */
  function StoredToken(t: Option<string>): string {
    t.GetOr("undefined")
  }

  function StoredUserOf(u: Option<User>): StoredUser {
    if u.Some? then Serialized(u.value) else UndefinedText
  }

  /** Shared by `login` and `register`: read the body as JSON, throw its
      `message` (or `fallback`) on a non-ok status, and otherwise overwrite
      both keys. */
  function Authenticate(s: Store, reply: Reply<Credentials>, fallback: string)
    : (r: (Store, Result<Credentials, Error>))
    ensures r.1.Err? ==> r.0 == s
    ensures r.1.Ok? ==> reply.Reply? && reply.ok && reply.body.Json?
    ensures r.1.Ok? ==> r.1.value == reply.body.data
    ensures r.1.Ok? ==> r.0 == Store(Some(StoredUserOf(r.1.value.user)),
                                     Some(StoredToken(r.1.value.token)))
    ensures reply.Reply? && !reply.ok && reply.body.Json? ==>
              r.1 == Err(Message(OrDefault(reply.body.message, fallback)))
  {
    match reply
    case NoResponse => (s, Err(NetworkFailure))
    case Reply(ok, _, body) =>
      match body
      case NotJson => (s, Err(MalformedJson))
      case Json(message, data) =>
        if !ok then (s, Err(Message(OrDefault(message, fallback))))
        else (Store(Some(StoredUserOf(data.user)), Some(StoredToken(data.token))), Ok(data))
  }

  /** `login(username, password)`; the request always goes out, so the
      backend's reply decides the rest. */
  function Login(s: Store, reply: Reply<Credentials>): (r: (Store, Result<Credentials, Error>))
    ensures Consistent(s) ==> Consistent(r.0)
    ensures r.1.Ok? <==> reply.Reply? && reply.ok && reply.body.Json?
    ensures r.1.Err? ==> r.0 == s
    ensures reply.Reply? && !reply.ok && reply.body.Json? ==>
              r.1 == Err(Message(OrDefault(reply.body.message, LoginFailed)))
    ensures reply.Reply? && reply.ok && reply.body.Json? ==>
              && r.1 == Ok(reply.body.data)
              && r.0.user == Some(StoredUserOf(reply.body.data.user))
              && r.0.token == Some(StoredToken(reply.body.data.token))
  {
    Authenticate(s, reply, LoginFailed)
  }

  /** `register(userData)`: the same contract as `Login`, with its own
      fallback message. */
  function Register(s: Store, reply: Reply<Credentials>): (r: (Store, Result<Credentials, Error>))
    ensures Consistent(s) ==> Consistent(r.0)
    ensures r.1.Ok? <==> reply.Reply? && reply.ok && reply.body.Json?
    ensures r.1.Err? ==> r.0 == s
    ensures reply.Reply? && !reply.ok && reply.body.Json? ==>
              r.1 == Err(Message(OrDefault(reply.body.message, RegisterFailed)))
    ensures reply.Reply? && reply.ok && reply.body.Json? ==>
              && r.1 == Ok(reply.body.data)
              && r.0.user == Some(StoredUserOf(reply.body.data.user))
              && r.0.token == Some(StoredToken(reply.body.data.token))
  {
    Authenticate(s, reply, RegisterFailed)
  }

  /** `logout()`: removes both keys, whatever was there. */
  function Logout(s: Store): (r: Store)
    ensures r.user.None? && r.token.None?
    ensures Consistent(r)
  {
    Store(None, None)
  }

  /** `getCurrentUser()`: null when the key is absent, the parsed record when
      it holds one, and a JSON.parse failure when it holds "undefined". */
  function CurrentUser(s: Store): (r: Result<Option<User>, Error>)
    ensures s.user.None? ==> r == Ok(None)
    ensures s.user.Some? && s.user.value.Serialized? ==> r == Ok(Some(s.user.value.user))
    ensures s.user == Some(UndefinedText) ==> r == Err(MalformedJson)
  {
    match s.user
    case None => Ok(None)
    case Some(Serialized(u)) => Ok(Some(u))
    case Some(UndefinedText) => Err(MalformedJson)
  }

  /** `getToken()`. */
  function Token(s: Store): Option<string> {
    s.token
  }

  /** A successful login or registration whose reply carries both fields
      makes `getCurrentUser` return that user and `getToken` that token. */
  lemma AuthenticateThenRead(s: Store, reply: Reply<Credentials>, register: bool)
    requires reply.Reply? && reply.ok && reply.body.Json?
    requires reply.body.data.user.Some? && reply.body.data.token.Some?
    ensures var r := if register then Register(s, reply) else Login(s, reply);
      && CurrentUser(r.0) == Ok(reply.body.data.user)
      && Token(r.0) == reply.body.data.token
  {
  }

  /** After `logout` there is no current user and no token. */
  lemma LogoutThenRead(s: Store)
    ensures CurrentUser(Logout(s)) == Ok(None)
    ensures Token(Logout(s)).None?
  {
  }

  /** Every sequence of login, register and logout keeps the store
      consistent when it starts consistent (the empty store is). */
  datatype SessionOp = DoLogin(reply: Reply<Credentials>)
                     | DoRegister(reply: Reply<Credentials>)
                     | DoLogout

  function Apply(s: Store, op: SessionOp): Store {
    match op
    case DoLogin(reply) => Login(s, reply).0
    case DoRegister(reply) => Register(s, reply).0
    case DoLogout => Logout(s)
  }

  function Run(s: Store, ops: seq<SessionOp>): Store
    decreases |ops|
  {
    if ops == [] then s else Run(Apply(s, ops[0]), ops[1..])
  }

  lemma {:induction false} RunKeepsConsistent(s: Store, ops: seq<SessionOp>)
    requires Consistent(s)
    ensures Consistent(Run(s, ops))
    decreases |ops|
  {
    if ops != [] {
      RunKeepsConsistent(Apply(s, ops[0]), ops[1..]);
    }
  }

  // ---------------------------------------------------------------------
  // authFetch
  // ---------------------------------------------------------------------

  type Headers = map<string, string>

  /** A request body as the value handed to `JSON.stringify`: a string or an
      object whose members keep their order. The text it serializes to is
      not modelled. */
  datatype JsonValue = JText(text: string) | JObject(members: seq<(string, JsonValue)>)

  /** The `options` argument: only the fields the screens pass. */
  datatype Options = Options(verb: Option<string>, headers: Option<Headers>, body: Option<JsonValue>)

  const NoOptions := Options(None, None, None)

  /** What reaches `fetch`. */
  datatype Request = Request(url: string, verb: Option<string>, headers: Headers, body: Option<JsonValue>)

  function DefaultHeaders(token: string): Headers {
    map["Authorization" := "Bearer " + token, "Content-Type" := "application/json"]
  }

  /** `{...defaultOptions.headers, ...(options.headers || {})}`: every caller
      key keeps the caller's value; the two defaults fill in only the keys the
      caller left out; no other key appears. */
  function MergeHeaders(token: string, caller: Option<Headers>): (h: Headers)
    ensures h.Keys == caller.GetOr(map[]).Keys + {"Authorization", "Content-Type"}
    ensures forall k :: k in caller.GetOr(map[]) ==> h[k] == caller.GetOr(map[])[k]
    ensures "Authorization" !in caller.GetOr(map[]) ==> h["Authorization"] == "Bearer " + token
    ensures "Content-Type" !in caller.GetOr(map[]) ==> h["Content-Type"] == "application/json"
  {
    DefaultHeaders(token) + caller.GetOr(map[])
  }

  /** The outcome of `authFetch`: it threw before any request, or it sent
      `request` and then either returned the reply or threw. */
  datatype Fetch<D> = NotSent(error: Error) | Sent(request: Request, result: Result<Reply<D>, Error>)

  /** `!token`: an absent key and the empty string both count as no token. */
  predicate HasToken(s: Store) {
    s.token.Some? && s.token.value != ""
  }

  /** `authFetch(url, options)` answered by `reply`. */
  function AuthFetch<D>(s: Store, url: string, options: Options, reply: Reply<D>): (r: Fetch<D>)
    ensures !HasToken(s) <==> r.NotSent?
    ensures r.NotSent? ==> r.error == Message(NoToken)
    ensures r.Sent? ==> r.request == Request(url, options.verb,
                                             MergeHeaders(s.token.value, options.headers),
                                             options.body)
    ensures r.Sent? && r.result.Ok? ==> r.result.value == reply && reply.Reply? && reply.ok
    ensures r.Sent? ==> (r.result.Ok? <==> reply.Reply? && reply.ok)
    ensures r.Sent? && reply.Reply? && !reply.ok ==>
              r.result == Err(Message(if reply.body.NotJson? then RequestFailed
                                      else OrDefault(reply.body.message, RequestFailed)))
  {
    if !HasToken(s) then NotSent(Message(NoToken))
    else
      var request := Request(url, options.verb, MergeHeaders(s.token.value, options.headers), options.body);
      match reply
      case NoResponse => Sent(request, Err(NetworkFailure))
      case Reply(ok, _, body) =>
        if ok then Sent(request, Ok(reply))
        else
          var message := match body
                         case NotJson => RequestFailed
                         case Json(m, _) => OrDefault(m, RequestFailed);
          Sent(request, Err(Message(message)))
  }

  /** A session opened by login with a non-empty token is what `authFetch`
      sends: `Authorization: Bearer <token>` unless the caller overrides it. */
  lemma LoginThenFetch<D>(s: Store, login: Reply<Credentials>, url: string, options: Options, reply: Reply<D>)
    requires login.Reply? && login.ok && login.body.Json?
    requires login.body.data.token.Some? && login.body.data.token.value != ""
    requires options.headers.None? || "Authorization" !in options.headers.value
    ensures var f := AuthFetch(Login(s, login).0, url, options, reply);
      f.Sent? && f.request.headers["Authorization"] == "Bearer " + login.body.data.token.value
  {
  }

  /** After logout nothing can be sent. */
  lemma LogoutThenFetch<D>(s: Store, url: string, options: Options, reply: Reply<D>)
    ensures AuthFetch(Logout(s), url, options, reply) == NotSent(Message(NoToken))
  {
  }
}

=== FILE: base.dfy ===
/** Option and Result wrappers shared by every module of the model. */
module Base {

  /** A value that may be absent (a JavaScript `undefined`/`null` field). */
  datatype Option<+T> = None | Some(value: T) {
    function GetOr(default: T): T {
      match this
      case Some(v) => v
      case None => default
    }
  }

  /** The outcome of an operation that either returns a value or throws. */
  datatype Result<+T, +E> = Ok(value: T) | Err(error: E)

  /** A JavaScript error whose only observable part here is its message. */
  datatype Error =
    | Message(text: string)   // new Error(text)
    | NetworkFailure          // fetch itself rejected (no HTTP response)
    | MalformedJson           // response.json() rejected: the body is not JSON

  /** `value || fallback` for a JSON string field: absent and "" are both falsy. */
  function OrDefault(value: Option<string>, fallback: string): (r: string)
    ensures value.Some? && value.value != "" ==> r == value.value
    ensures value.None? || value.value == "" ==> r == fallback
  {
    if value.Some? && value.value != "" then value.value else fallback
  }
}

=== FILE: enrollment.dfy ===
/**
 * The re-enrollment screen of `pages/Reinscripcion.jsx` apart from paging:
 * the search over students, the row selection with its action target, the
 * prefill of the re-enrollment form from the newest record, and the intake of
 * a new student, which creates the student and then its first enrollment.
 *
 * Backend replies are parameters; every request goes through `authFetch`
 * (`AuthService.AuthFetch`), so its token check and its throw on a non-ok
 * status apply here too.
 */
module Enrollment {
  import opened Base
  import opened Text
  import Selection
  import opened AuthService
  import Students

  type Student = Students.Student

  // --- search ----------------------------------------------------------------------

  /** The term is lower-cased and trimmed; a blank term keeps everyone.
      Otherwise a student is kept when the term occurs in nombre, apellido,
      email or carrera (lower-cased), in telefono (as stored), or in
      "nombre apellido" (lower-cased). */
  predicate Matches(a: Student, term: string) {
    var t := Trim(Lower(term));
    || t == []
    || Contains(Lower(a.nombre), t) || Contains(Lower(a.apellido), t)
    || Contains(Lower(a.email), t) || Contains(Lower(a.carrera), t)
    || Contains(a.telefono, t)
    || Contains(Lower(a.nombre + " " + a.apellido), t)
  }

  function FilterStudents(xs: seq<Student>, term: string): (r: seq<Student>)
    ensures forall a :: a in r <==> a in xs && Matches(a, term)
    ensures Selection.IsSubseq(r, xs)
    ensures forall a :: multiset(r)[a] == if Matches(a, term) then multiset(xs)[a] else 0
  {
    Selection.Filter(xs, a => Matches(a, term))
  }

  /** A term made only of whitespace keeps every student, in order. */
  lemma BlankTermKeepsAll(xs: seq<Student>, term: string)
    requires AllSpace(term)
    ensures FilterStudents(xs, term) == xs
  {
    assert AllSpace(Lower(term));
    Selection.FilterKeepsAll(xs, a => Matches(a, term));
  }

  /** Typing a student's full name, in any letter case, finds that student
      through the "nombre apellido" field. */
  lemma FullNameMatch(xs: seq<Student>, a: Student)
    requires a in xs
    ensures a in FilterStudents(xs, a.nombre + " " + a.apellido)
  {
    TrimContained(Lower(a.nombre + " " + a.apellido));
  }

  // --- selection ---------------------------------------------------------------------

  /** The selected ids and the student the action buttons work on. */
  datatype Picks = Picks(selection: set<Selection.Id>, target: Option<Student>)

  /** `handleSelectAlumno`: flips the student's id; adding it also makes the
      student the action target, removing it clears the target only when the
      target was that student. */
  function SelectStudent(p: Picks, a: Student): (r: Picks)
    ensures a.id in r.selection <==> a.id !in p.selection
    ensures forall x :: x != a.id ==> (x in r.selection <==> x in p.selection)
    ensures a.id !in p.selection ==> r.target == Some(a)
    ensures a.id in p.selection && p.target.Some? && p.target.value.id == a.id ==> r.target.None?
    ensures a.id in p.selection && (p.target.None? || p.target.value.id != a.id) ==> r.target == p.target
  {
    if a.id in p.selection then
      Picks(p.selection - {a.id},
            if p.target.Some? && p.target.value.id == a.id then None else p.target)
    else Picks(p.selection + {a.id}, Some(a))
  }

  /** Two clicks on an unselected student restore the selection and leave
      no action target. */
  lemma SelectTwice(p: Picks, a: Student)
    requires a.id !in p.selection
    ensures SelectStudent(SelectStudent(p, a), a) == Picks(p.selection, None)
  {
  }


  /** `handleSelectAll`: checking selects exactly the ids of the filtered
      list, unchecking selects nothing; the action target is left alone. */
  function SelectAll(p: Picks, checked: bool, xs: seq<Student>, term: string): (r: Picks)
    ensures checked ==> forall id :: id in r.selection <==> exists a :: a in FilterStudents(xs, term) && a.id == id
    ensures !checked ==> r.selection == {}
    ensures r.target == p.target
  {
    p.(selection := Selection.SelectRows(checked, FilterStudents(xs, term), (a: Student) => a.id))
  }

  // --- the re-enrollment form prefill -------------------------------------------------------

  /** A stored re-enrollment; the date is the ISO text `toISOString` gives. */
  datatype Record = Record(semestre: string, fechaReinscripcion: string, estado: string,
                           observaciones: Option<string>)

  datatype EnrollmentForm = EnrollmentForm(semestre: string, fechaReinscripcion: string,
                                           estado: string, observaciones: string)

  /** `iso.split('T')[0]`: the text before the first 'T', or all of it. */
  function DatePart(iso: string): (r: string)
    ensures |r| <= |iso| && r == iso[..|r|]
    ensures 'T' !in r
    ensures |r| < |iso| ==> iso[|r|] == 'T'
  {
    iso[..IndexOf(iso, 'T')]
  }

  /** The date part of `date + "T" + time` is `date` when the date holds no 'T'. */
  lemma DatePartOfTimestamp(date: string, time: string)
    requires 'T' !in date
    ensures DatePart(date + "T" + time) == date
  {
    var s := date + "T" + time;
    assert s[|date|] == 'T';
    assert forall k :: 0 <= k < |date| ==> s[k] == date[k];
  }

  /** What the form holds once the history arrived: the newest record (the
      last one) with its date cut to the day and a missing note read as '';
      with no history, an empty semester, today, 'activo' and no note. */
  function Prefill(history: seq<Record>, todayIso: string): (r: EnrollmentForm)
    ensures |history| == 0 ==> r == EnrollmentForm("", DatePart(todayIso), "activo", "")
    ensures |history| > 0 ==>
              var last := history[|history| - 1];
              && r.semestre == last.semestre && r.estado == last.estado
              && r.fechaReinscripcion == DatePart(last.fechaReinscripcion)
              && r.observaciones == OrDefault(last.observaciones, "")
  {
    if |history| == 0 then EnrollmentForm("", DatePart(todayIso), "activo", "")
    else
      var last := history[|history| - 1];
      EnrollmentForm(last.semestre, DatePart(last.fechaReinscripcion), last.estado,
                     OrDefault(last.observaciones, ""))
  }

  /** Only the newest record matters: appending a record makes it the whole
      prefill, whatever came before. */
  lemma PrefillUsesNewest(history: seq<Record>, newest: Record, todayIso: string)
    ensures Prefill(history + [newest], todayIso) == Prefill([newest], todayIso)
  {
  }

  const HistoryUrl := "http://localhost:3000/api/reinscripciones/alumno/"
  const HistoryFailed := "Error al cargar reinscripciones"

  /** `fetchUltimaReinscripcion(id)`: on any failure the form is kept and the
      error is returned; otherwise the form is the prefill of the history. */
  function LoadPrefill(s: Store, id: string, form: EnrollmentForm, reply: Reply<seq<Record>>,
                       todayIso: string): (r: (EnrollmentForm, Option<Error>))
    ensures r.1.Some? ==> r.0 == form
    ensures r.1.None? <==> HasToken(s) && reply.Reply? && reply.ok && reply.body.Json?
    ensures r.1.None? ==> r.0 == Prefill(reply.body.data, todayIso)
    ensures !HasToken(s) ==> r.1 == Some(Message(NoToken))
  {
    match AuthFetch(s, HistoryUrl + id, NoOptions, reply)
    case NotSent(e) => (form, Some(e))
    case Sent(_, Err(e)) => (form, Some(e))
    case Sent(_, Ok(_)) =>
      if !reply.ok then (form, Some(Message(HistoryFailed)))
      else
        match reply.body
        case NotJson => (form, Some(MalformedJson))
        case Json(_, history) => (Prefill(history, todayIso), None)
  }

  // --- intake: validation and payloads --------------------------------------------------------

  datatype IntakeForm = IntakeForm(nombre: string, apellido: string, email: string, carrera: string,
                                   genero: string, telefono: string, semestre: string, estado: string)

  const BlankIntake := IntakeForm("", "", "", "", "masculino", "", "1", "activo")

  /** Why the intake form was refused before any request. */
  datatype Problem = MissingFields | BadEmail | BadPhone

  /** The message shown for each refusal. */
  function ProblemText(p: Problem): string {
    match p
    case MissingFields => "Por favor complete todos los campos requeridos"
    case BadEmail => "Por favor ingrese un email válido"
    case BadPhone => "Por favor ingrese un número de teléfono válido (mínimo 10 dígitos)"
  }

  const CreateFailed := "Error al crear el alumno"
  const EnrollFailed := "Error al crear la reinscripción inicial"
  const FirstNote := "Inscripción inicial"

  predicate HasRequired(f: IntakeForm) {
    && f.nombre != "" && f.apellido != "" && f.email != ""
    && f.carrera != "" && f.telefono != "" && f.genero != ""
  }

  /** The three checks in order: the six required fields, the email pattern,
      at least ten digits in the phone. `None` when the form passes. */
  function Validate(f: IntakeForm): (r: Option<Problem>)
    ensures r.None? <==> HasRequired(f) && ValidEmail(f.email) && ValidPhone(f.telefono)
    ensures !HasRequired(f) ==> r == Some(MissingFields)
    ensures HasRequired(f) && !ValidEmail(f.email) ==> r == Some(BadEmail)
    ensures HasRequired(f) && ValidEmail(f.email) && !ValidPhone(f.telefono) ==> r == Some(BadPhone)
  {
    if !HasRequired(f) then Some(MissingFields)
    else if !ValidEmail(f.email) then Some(BadEmail)
    else if !ValidPhone(f.telefono) then Some(BadPhone)
    else None
  }

  /** The student body: the four text fields trimmed, genero, carrera and
      estado as chosen. */
  function StudentPayloadOf(f: IntakeForm): (p: Students.StudentPayload)
    ensures p.nombre == Trim(f.nombre) && p.apellido == Trim(f.apellido)
    ensures p.email == Trim(f.email) && p.telefono == Trim(f.telefono)
    ensures p.genero == f.genero && p.carrera == f.carrera && p.estado == f.estado
  {
    Students.StudentPayload(Trim(f.nombre), Trim(f.apellido), f.genero, Trim(f.telefono),
                            Trim(f.email), f.carrera, f.estado)
  }

  /** What passed validation is what is sent: the trimmed email is the one
      checked, it matches the pattern, and the trimmed phone still has its
      ten digits. */
  lemma SentDataStillValid(f: IntakeForm)
    requires Validate(f).None?
    ensures StudentPayloadOf(f).email == f.email && EmailShape(f.email)
    ensures ValidPhone(StudentPayloadOf(f).telefono)
  {
    ValidEmailIsTrimmed(f.email);
    ValidEmailIff(f.email);
    TrimKeepsDigits(f.telefono);
  }

  function StudentJson(p: Students.StudentPayload): JsonValue {
    JObject([("nombre", JText(p.nombre)), ("apellido", JText(p.apellido)),
             ("email", JText(p.email)), ("telefono", JText(p.telefono)),
             ("genero", JText(p.genero)), ("carrera", JText(p.carrera)),
             ("estado", JText(p.estado))])
  }

  datatype EnrollmentPayload = EnrollmentPayload(alumnoId: string, semestre: string,
                                                 fechaReinscripcion: string, estado: string,
                                                 observaciones: string)

  function EnrollmentJson(q: EnrollmentPayload): JsonValue {
    JObject([("alumnoId", JText(q.alumnoId)), ("semestre", JText(q.semestre)),
             ("fechaReinscripcion", JText(q.fechaReinscripcion)), ("estado", JText(q.estado)),
             ("observaciones", JText(q.observaciones))])
  }

  /** The first enrollment of a student just created. */
  function FirstEnrollment(id: string, f: IntakeForm, todayIso: string): EnrollmentPayload {
    EnrollmentPayload(id, f.semestre, DatePart(todayIso), "activo", FirstNote)
  }

  // --- intake: the two requests ----------------------------------------------------------------

  const StudentsUrl := "http://localhost:3000/api/alumnos"
  const EnrollmentsUrl := "http://localhost:3000/api/reinscripciones"
  const IntakeHeaders: Headers := map["Content-Type" := "application/json", "Accept" := "application/json"]

  function Post(body: JsonValue): Options {
    Options(Some("POST"), Some(IntakeHeaders), Some(body))
  }

  const DeleteOptions := Options(Some("DELETE"), None, None)

  /** The part of a create reply the intake reads. */
  datatype Created = Created(id: string)

  /** Where an intake ended: the requests sent in order, the error this
      intake raised, if any (the screen never clears an error once shown),
      whether a student now exists without an enrollment, and
      the intake form afterwards (reset and closed on success, kept and open
      otherwise). */
  datatype Intake = Intake(sent: seq<Request>, error: Option<Error>, orphaned: bool,
                           form: IntakeForm, open: bool)

  function Failed(sent: seq<Request>, e: Error, orphaned: bool, f: IntakeForm): Intake {
    Intake(sent, Some(e), orphaned, f, true)
  }

  /** The three requests an intake can send, once the token is known. */
  function StudentRequest(token: string, body: JsonValue): Request {
    Request(StudentsUrl, Some("POST"), MergeHeaders(token, Some(IntakeHeaders)), Some(body))
  }

  function EnrollRequest(token: string, id: string, f: IntakeForm, todayIso: string): Request {
    Request(EnrollmentsUrl, Some("POST"), MergeHeaders(token, Some(IntakeHeaders)),
            Some(EnrollmentJson(FirstEnrollment(id, f, todayIso))))
  }

  function DeleteRequest(token: string, id: string): Request {
    Request(StudentsUrl + "/" + id, Some("DELETE"), MergeHeaders(token, None), None)
  }

  /** Every request in `sent` is a POST. */
  predicate OnlyPosts(sent: seq<Request>) {
    forall k :: 0 <= k < |sent| ==> sent[k].verb == Some("POST")
  }

  /** The error `authFetch` throws for a reply with a non-ok status. */
  function Rejection<D>(reply: Reply<D>): Error
    requires reply.Reply?
  {
    Message(if reply.body.NotJson? then RequestFailed else OrDefault(reply.body.message, RequestFailed))
  }

  /** The create request and its reply, shared by both versions of the
      intake: either the intake already ended, or the student exists with
      this id and this request created it. */
  datatype Step = Stop(result: Intake) | Continue(request: Request, id: string)

  /** The create request for a validated form, up to its reply. */
  function PostStudent(s: Store, f: IntakeForm, body: JsonValue, created: Reply<Created>): (r: Step)
    ensures r.Stop? ==> r.result.error.Some? && r.result.form == f && r.result.open
    ensures r.Stop? ==> r.result.sent == [] || (HasToken(s) && r.result.sent == [StudentRequest(s.token.value, body)])
    ensures r.Stop? ==> OnlyPosts(r.result.sent)
    ensures r.Continue? <==> HasToken(s) && created.Reply? && created.ok && created.body.Json?
    ensures r.Continue? ==> r.id == created.body.data.id && r.request == StudentRequest(s.token.value, body)
  {
    match AuthFetch(s, StudentsUrl, Post(body), created)
    case NotSent(e) => Stop(Failed([], e, false, f))
    case Sent(req, Err(e)) => Stop(Failed([req], e, false, f))
    case Sent(req, Ok(_)) =>
      match created.body
      case NotJson => Stop(Failed([req], MalformedJson, true, f))
      case Json(m, student) =>
        if !created.ok then Stop(Failed([req], Message(OrDefault(m, CreateFailed)), false, f))
        else Continue(req, student.id)
  }

  /** The compensating delete of a student: the requests it sent and whether
      the student is gone. Its own failure is swallowed. */
  function Cleanup(s: Store, id: string, reply: Reply<()>): (r: (seq<Request>, bool))
    ensures r.1 <==> HasToken(s) && reply.Reply? && reply.ok
    ensures !HasToken(s) ==> r.0 == []
    ensures HasToken(s) ==> r.0 == [DeleteRequest(s.token.value, id)]
  {
    match AuthFetch(s, StudentsUrl + "/" + id, DeleteOptions, reply)
    case NotSent(_) => ([], false)
    case Sent(req, result) => ([req], result.Ok?)
  }

  /** The enrollment request of the intake as written, once `req1` created
      the student `id`. The reply is read as JSON and its status checked only
      after `authFetch` returned, and `authFetch` returns only ok replies, so
      the branch holding the compensating delete is never taken: exactly two
      requests go out, and a rejected enrollment leaves the student without
      one. */
  function EnrollAsWritten(s: Store, f: IntakeForm, todayIso: string, req1: Request, id: string,
                           enrolled: Reply<()>, cleanup: Reply<()>): (r: Intake)
    requires HasToken(s)
    ensures r.sent == [req1, EnrollRequest(s.token.value, id, f, todayIso)]
    ensures req1.verb == Some("POST") ==> OnlyPosts(r.sent)
    ensures r.error.None? <==> enrolled.Reply? && enrolled.ok && enrolled.body.Json?
    ensures r.error.None? ==> !r.orphaned && r.form == BlankIntake && !r.open
    ensures r.error.Some? ==> r.form == f && r.open
    ensures r.orphaned <==> !(enrolled.Reply? && enrolled.ok)
    ensures enrolled.Reply? && !enrolled.ok ==> r.error == Some(Rejection(enrolled))
  {
    match AuthFetch(s, EnrollmentsUrl, Post(EnrollmentJson(FirstEnrollment(id, f, todayIso))), enrolled)
    case NotSent(e) => Failed([req1], e, true, f)
    case Sent(req2, Err(e)) => Failed([req1, req2], e, true, f)
    case Sent(req2, Ok(_)) =>
      match enrolled.body
      case NotJson => Failed([req1, req2], MalformedJson, false, f)
      case Json(m, _) =>
        if !enrolled.ok then
          var (extra, removed) := Cleanup(s, id, cleanup);
          Failed([req1, req2] + extra, Message(OrDefault(m, EnrollFailed)), !removed, f)
        else Intake([req1, req2], None, false, BlankIntake, false)
  }

  /** The two requests of the intake as written, for a form that passed
      validation. */
  function SubmitAsWritten(s: Store, f: IntakeForm, todayIso: string, created: Reply<Created>,
                           enrolled: Reply<()>, cleanup: Reply<()>): (r: Intake)
    ensures OnlyPosts(r.sent)
    ensures r.error.None? <==> && HasToken(s) && created.Reply? && created.ok && created.body.Json?
                               && enrolled.Reply? && enrolled.ok && enrolled.body.Json?
    ensures r.error.None? ==> && r.sent == [StudentRequest(s.token.value, StudentJson(StudentPayloadOf(f))),
                                           EnrollRequest(s.token.value, created.body.data.id, f, todayIso)]
                              && !r.orphaned && r.form == BlankIntake && !r.open
    ensures r.error.Some? ==> r.form == f && r.open
    ensures && HasToken(s) && created.Reply? && created.ok && created.body.Json?
            && enrolled.Reply? && !enrolled.ok ==>
              |r.sent| == 2 && r.orphaned && r.error == Some(Rejection(enrolled))
  {
    match PostStudent(s, f, StudentJson(StudentPayloadOf(f)), created)
    case Stop(result) => result
    case Continue(req1, id) => EnrollAsWritten(s, f, todayIso, req1, id, enrolled, cleanup)
  }

  /** `handleInscripcionSubmit` as written: a refused form sends nothing and
      shows why; otherwise the two requests follow. */
  function IntakeAsWritten(s: Store, f: IntakeForm, todayIso: string, created: Reply<Created>,
                           enrolled: Reply<()>, cleanup: Reply<()>): (r: Intake)
    ensures Validate(f).Some? ==> && r.sent == [] && r.error == Some(Message(ProblemText(Validate(f).value)))
                                  && r.form == f && r.open
    ensures Validate(f).None? ==> r == SubmitAsWritten(s, f, todayIso, created, enrolled, cleanup)
  {
    match Validate(f)
    case Some(p) => Failed([], Message(ProblemText(p)), false, f)
    case None => SubmitAsWritten(s, f, todayIso, created, enrolled, cleanup)
  }

  /** No input makes the intake as written send a delete. */
  lemma CompensationNeverRuns(s: Store, f: IntakeForm, todayIso: string, created: Reply<Created>,
                              enrolled: Reply<()>, cleanup: Reply<()>)
    ensures OnlyPosts(IntakeAsWritten(s, f, todayIso, created, enrolled, cleanup).sent)
  {
  }

  /** When the student is created and the enrollment is rejected, the intake
      as written stops after two requests, shows the message `authFetch`
      made (not the intake's own fallback), and leaves the new student
      without an enrollment. */
  lemma FailedEnrollmentLeavesStudent(s: Store, f: IntakeForm, todayIso: string,
                                      created: Reply<Created>, enrolled: Reply<()>, cleanup: Reply<()>)
    requires Validate(f).None? && HasToken(s)
    requires created.Reply? && created.ok && created.body.Json?
    requires enrolled.Reply? && !enrolled.ok
    ensures var r := IntakeAsWritten(s, f, todayIso, created, enrolled, cleanup);
      && |r.sent| == 2 && r.orphaned && r.error == Some(Rejection(enrolled))
  {
  }

  /** The enrollment request as intended: when it fails the student just
      created is deleted, a failure of that delete is swallowed, and the
      enrollment error is the one shown. */
  function EnrollCorrected(s: Store, f: IntakeForm, todayIso: string, req1: Request, id: string,
                           enrolled: Reply<()>, cleanup: Reply<()>): (r: Intake)
    requires HasToken(s)
    ensures r.error.None? <==> enrolled.Reply? && enrolled.ok && enrolled.body.Json?
    ensures enrolled.Reply? && enrolled.ok ==> r == EnrollAsWritten(s, f, todayIso, req1, id, enrolled, cleanup)
    ensures !(enrolled.Reply? && enrolled.ok) ==>
              && r.sent == [req1, EnrollRequest(s.token.value, id, f, todayIso), DeleteRequest(s.token.value, id)]
              && r.error == Some(if enrolled.Reply? then Rejection(enrolled) else NetworkFailure)
              && (r.orphaned <==> !(cleanup.Reply? && cleanup.ok))
              && r.form == f && r.open
  {
    match AuthFetch(s, EnrollmentsUrl, Post(EnrollmentJson(FirstEnrollment(id, f, todayIso))), enrolled)
    case NotSent(e) =>
      var (extra, removed) := Cleanup(s, id, cleanup);
      Failed([req1] + extra, e, !removed, f)
    case Sent(req2, Err(e)) =>
      var (extra, removed) := Cleanup(s, id, cleanup);
      Failed([req1, req2] + extra, e, !removed, f)
    case Sent(req2, Ok(_)) =>
      match enrolled.body
      case NotJson => Failed([req1, req2], MalformedJson, false, f)
      case Json(_, _) => Intake([req1, req2], None, false, BlankIntake, false)
  }

  /** The two requests of the corrected intake, for a form that passed
      validation. */
  function SubmitCorrected(s: Store, f: IntakeForm, todayIso: string, created: Reply<Created>,
                           enrolled: Reply<()>, cleanup: Reply<()>): (r: Intake)
    ensures r.error.None? <==> && HasToken(s) && created.Reply? && created.ok && created.body.Json?
                               && enrolled.Reply? && enrolled.ok && enrolled.body.Json?
    ensures r.error.Some? ==> r.form == f && r.open
    ensures enrolled.Reply? && enrolled.ok ==> r == SubmitAsWritten(s, f, todayIso, created, enrolled, cleanup)
    ensures && HasToken(s) && created.Reply? && created.ok && created.body.Json?
            && !(enrolled.Reply? && enrolled.ok) ==>
              && r.sent == [StudentRequest(s.token.value, StudentJson(StudentPayloadOf(f))),
                            EnrollRequest(s.token.value, created.body.data.id, f, todayIso),
                            DeleteRequest(s.token.value, created.body.data.id)]
              && r.error == Some(if enrolled.Reply? then Rejection(enrolled) else NetworkFailure)
              && (r.orphaned <==> !(cleanup.Reply? && cleanup.ok))
  {
    match PostStudent(s, f, StudentJson(StudentPayloadOf(f)), created)
    case Stop(result) => result
    case Continue(req1, id) => EnrollCorrected(s, f, todayIso, req1, id, enrolled, cleanup)
  }

  /** `handleInscripcionSubmit` with the enrollment request wrapped so that its
      failure triggers the compensating delete. */
  function IntakeCorrected(s: Store, f: IntakeForm, todayIso: string, created: Reply<Created>,
                           enrolled: Reply<()>, cleanup: Reply<()>): (r: Intake)
    ensures Validate(f).Some? ==> && r.sent == [] && r.error == Some(Message(ProblemText(Validate(f).value)))
                                  && r.form == f && r.open
    ensures Validate(f).None? ==> r == SubmitCorrected(s, f, todayIso, created, enrolled, cleanup)
  {
    match Validate(f)
    case Some(p) => Failed([], Message(ProblemText(p)), false, f)
    case None => SubmitCorrected(s, f, todayIso, created, enrolled, cleanup)
  }

  /** With the student created and the enrollment rejected, the corrected
      intake deletes that student, reports the same error as the intake as
      written, and leaves no student behind exactly when the delete
      succeeded. */
  lemma CorrectedRemovesStudent(s: Store, f: IntakeForm, todayIso: string,
                                created: Reply<Created>, enrolled: Reply<()>, cleanup: Reply<()>)
    requires Validate(f).None? && HasToken(s)
    requires created.Reply? && created.ok && created.body.Json?
    requires enrolled.Reply? && !enrolled.ok
    ensures var r := IntakeCorrected(s, f, todayIso, created, enrolled, cleanup);
      && |r.sent| == 3 && r.sent[2] == DeleteRequest(s.token.value, created.body.data.id)
      && r.error == IntakeAsWritten(s, f, todayIso, created, enrolled, cleanup).error
      && (r.orphaned <==> !(cleanup.Reply? && cleanup.ok))
  {
  }

  /** The correction changes nothing unless the enrollment request fails. */
  lemma SameUnlessEnrollmentFails(s: Store, f: IntakeForm, todayIso: string,
                                  created: Reply<Created>, enrolled: Reply<()>, cleanup: Reply<()>)
    requires enrolled.Reply? && enrolled.ok
    ensures IntakeCorrected(s, f, todayIso, created, enrolled, cleanup)
            == IntakeAsWritten(s, f, todayIso, created, enrolled, cleanup)
  {
  }
}

=== FILE: pagination.dfy ===
/**
 * Paging of the re-enrollment list in `pages/Reinscripcion.jsx`: four rows a
 * page, the page's rows taken with `Array.prototype.slice`, the row of page
 * buttons (at most five, consecutive), the previous/next buttons, and the
 * reset to page 1 whenever the search text changes.
 */
module Pagination {

  const PageSize := 4
  const MaxPagesToShow := 5

  function Min(a: int, b: int): int { if a <= b then a else b }
  function Max(a: int, b: int): int { if a <= b then b else a }

  /** `Math.ceil(n / 4)`. */
  function TotalPages(n: nat): (r: nat)
    ensures r * PageSize >= n
    ensures r > 0 ==> (r - 1) * PageSize < n
  {
    (n + PageSize - 1) / PageSize
  }

  // --- the rows of a page ----------------------------------------------------------

  /** How `slice` reads one of its bounds: a negative index counts from the
      end, and the result is clamped to `[0, len]`. */
  function SliceBound(i: int, len: nat): (r: nat)
    ensures r <= len
    ensures 0 <= i ==> r == Min(i, len)
    ensures i < 0 ==> r == Max(len + i, 0)
  {
    if i < 0 then (if len + i < 0 then 0 else len + i)
    else if i < len then i else len
  }

  /** `xs.slice(start, end)`. */
  function JsSlice<T>(xs: seq<T>, start: int, end: int): (r: seq<T>)
    ensures |r| <= |xs|
    ensures SliceBound(start, |xs|) < SliceBound(end, |xs|) ==>
              r == xs[SliceBound(start, |xs|)..SliceBound(end, |xs|)]
    ensures SliceBound(end, |xs|) <= SliceBound(start, |xs|) ==> r == []
  {
    var a := SliceBound(start, |xs|);
    var b := SliceBound(end, |xs|);
    if a < b then xs[a..b] else []
  }

  /** The rows shown on page `page` (`filtered.slice(page*4 - 4, page*4)`). */
  function PageItems<T>(xs: seq<T>, page: int): (r: seq<T>)
    ensures |r| <= PageSize
    ensures 1 <= page ==> r == xs[Min((page - 1) * PageSize, |xs|)..Min(page * PageSize, |xs|)]
  {
    JsSlice(xs, page * PageSize - PageSize, page * PageSize)
  }

  /** Every page in `[1, TotalPages]` has rows, all but the last are full,
      and a page past the end is empty. */
  lemma PageSizes<T>(xs: seq<T>, page: int)
    requires 1 <= page
    ensures page <= TotalPages(|xs|) ==> |PageItems(xs, page)| > 0
    ensures page < TotalPages(|xs|) ==> |PageItems(xs, page)| == PageSize
    ensures page > TotalPages(|xs|) ==> PageItems(xs, page) == []
  {
  }

  /** Pages 1..k laid end to end. */
  function PagesUpTo<T>(xs: seq<T>, k: nat): seq<T>
  {
    if k == 0 then [] else PagesUpTo(xs, k - 1) + PageItems(xs, k)
  }

  /** The first k pages are the first `4k` rows. */
  lemma {:induction false} PagesUpToIsPrefix<T>(xs: seq<T>, k: nat)
    ensures PagesUpTo(xs, k) == xs[..Min(k * PageSize, |xs|)]
  {
    if k > 0 {
      PagesUpToIsPrefix(xs, k - 1);
      var a := Min((k - 1) * PageSize, |xs|);
      var b := Min(k * PageSize, |xs|);
      assert xs[..a] + xs[a..b] == xs[..b];
    }
  }

  /** Paging loses and repeats nothing: the pages 1..TotalPages, in order,
      are exactly the filtered list. */
  lemma PagesCoverList<T>(xs: seq<T>)
    ensures PagesUpTo(xs, TotalPages(|xs|)) == xs
  {
    PagesUpToIsPrefix(xs, TotalPages(|xs|));
  }

  // --- the page buttons ----------------------------------------------------------------

  /** The pages `lo, lo + 1, ..., hi`; empty when `hi < lo`. */
  function Range(lo: int, hi: int): (r: seq<int>)
    ensures |r| == Max(hi - lo + 1, 0)
    ensures forall k :: 0 <= k < |r| ==> r[k] == lo + k
  {
    seq(Max(hi - lo + 1, 0), k requires 0 <= k => lo + k)
  }

  /** The button row as a window: all pages when there are at most five,
      otherwise the five pages centred on the current one and pushed back
      inside `[1, total]` at either end. */
  function PageNumbers(total: nat, current: int): (r: seq<int>)
    ensures total <= MaxPagesToShow ==> r == Range(1, total)
    ensures total > MaxPagesToShow ==> && |r| == MaxPagesToShow
                                       && 1 <= r[0] && r[|r| - 1] <= total
    ensures forall k :: 0 < k < |r| ==> r[k] == r[k - 1] + 1
    ensures forall k :: 0 <= k < |r| ==> 1 <= r[k] <= total
    ensures current in r <==> 1 <= current <= total
    ensures total > MaxPagesToShow && 3 <= current <= total - 2 ==> r[2] == current
  {
    if total <= MaxPagesToShow then
      var r := Range(1, total);
      assert 1 <= current <= total ==> r[current - 1] == current;
      r
    else
      var lo := Max(1, Min(current - 2, total - 4));
      var r := Range(lo, lo + 4);
      assert 1 <= current <= total ==> r[current - lo] == current;
      r
  }

  /** Appends `lo, ..., hi` to `pages` one at a time. */
  method PushRange(pages: seq<int>, lo: int, hi: int) returns (r: seq<int>)
    ensures r == pages + Range(lo, hi)
  {
    r := pages;
    var i := lo;
    while i <= hi
      invariant lo <= i <= Max(hi + 1, lo)
      invariant r == pages + Range(lo, i - 1)
    {
      r := r + [i];
      i := i + 1;
    }
  }

  /** `getPageNumbers`, with its three cases near the start, near the end and
      in the middle: it agrees with the clamped window. */
  method GetPageNumbers(total: nat, current: int) returns (pages: seq<int>)
    ensures pages == PageNumbers(total, current)
  {
    pages := [];
    if total <= MaxPagesToShow {
      pages := PushRange(pages, 1, total);
    } else if current <= 3 {
      pages := PushRange(pages, 1, 5);
    } else if current >= total - 2 {
      pages := PushRange(pages, total - 4, total);
    } else {
      pages := PushRange(pages, current - 2, current + 2);
    }
  }

  /** The button row never skips a page number, so the ellipsis the render
      adds before a gap never appears. */
  lemma NoEllipsis(total: nat, current: int, index: int)
    requires 0 < index < |PageNumbers(total, current)|
    ensures PageNumbers(total, current)[index] - PageNumbers(total, current)[index - 1] <= 1
  {
  }

  // --- moving between pages -------------------------------------------------------------

  datatype Click = Previous | Next | Number(page: int)

  /** The page after a click. "Anterior" is disabled on page 1 and
      "Siguiente" on the last page; a disabled button does nothing. */
  function AfterClick(current: int, total: nat, click: Click): (r: int)
    ensures click.Previous? ==> current - 1 <= r <= current && (current == 1 ==> r == 1)
    ensures click.Next? ==> current <= r <= current + 1 && (current == total ==> r == total)
    ensures click.Number? ==> r == click.page
  {
    match click
    case Previous => if current == 1 then current else current - 1
    case Next => if current == total then current else current + 1
    case Number(p) => p
  }

  /** The buttons are rendered only when there are two pages or more. Starting
      from a page in range, every click offered lands on a page in range. */
  lemma ClickStaysInRange(current: int, total: nat, click: Click)
    requires 2 <= total && 1 <= current <= total
    requires click.Number? ==> click.page in PageNumbers(total, current)
    ensures 1 <= AfterClick(current, total, click) <= total
  {
  }

  // --- the search text and the current page -----------------------------------------------

  datatype View = View(term: string, page: int)

  const Initial := View("", 1)

  /** Typing in the search box stores the text as typed; the effect keyed on
      the term then sends a changed search back to page 1. */
  function OnSearchInput(v: View, input: string): (r: View)
    ensures r.term == input
    ensures input != v.term ==> r.page == 1
    ensures input == v.term ==> r == v
  {
    if input != v.term then View(input, 1) else v
  }

  /** After any new search the rows shown are the first (up to) four of the
      new result, whatever page was shown before. */
  lemma NewSearchShowsFirstPage<T>(v: View, input: string, result: seq<T>)
    requires input != v.term
    ensures PageItems(result, OnSearchInput(v, input).page) == result[..Min(PageSize, |result|)]
  {
  }
}

=== FILE: programs.dfy ===
/**
 * The academic-program screen of `pages/carreras.jsx`: turning the backend
 * list into rows (with the six built-in programs as a fallback), search,
 * single selection with its detail panel, select-all, and what deletes and
 * bulk operations do to the selection.
 */
module Programs {
  import opened Base
  import opened Text
  import Selection
  import AuthService

  /** A row as the screen holds it. */
  datatype Program = Program(id: string, nombre: string, descripcion: string, duracion: nat,
                             modalidad: string, tieneAlumnos: bool, numAlumnos: nat)

  /** The `alumnos` field of a backend record: missing, some non-array value,
      or an array (only its length matters here). */
  datatype AlumnosField = Missing | NotAnArray | StudentArray(length: nat)

  datatype BackendProgram = BackendProgram(id: string, nombre: string, descripcion: string,
                                           duracion: nat, modalidad: string, alumnos: AlumnosField)

  /** The JSON the list endpoint returns: an array of records, or anything else. */
  datatype ListBody = ProgramList(items: seq<BackendProgram>) | NotAList

  /** The bulk-edit form. */
  datatype ProgramForm = ProgramForm(nombre: string, descripcion: string, duracion: string, modalidad: string)

  const BlankForm := ProgramForm("", "", "", "")

  datatype Screen = Screen(selection: set<Selection.Id>, detail: Option<Program>,
                           bulkEditMode: bool, bulkData: ProgramForm)

  // --- loading -----------------------------------------------------------------

  /** The per-record mapping of `fetchCarreras`: `tieneAlumnos` says the
      record has a non-empty `alumnos` array, `numAlumnos` is its length (0
      when there is no array); everything else is copied. */
  function FromBackend(b: BackendProgram): (p: Program)
    ensures p.tieneAlumnos <==> b.alumnos.StudentArray? && b.alumnos.length > 0
    ensures p.numAlumnos == (if b.alumnos.StudentArray? then b.alumnos.length else 0)
    ensures p.id == b.id && p.nombre == b.nombre && p.descripcion == b.descripcion
    ensures p.duracion == b.duracion && p.modalidad == b.modalidad
  {
    var n := if b.alumnos.StudentArray? then b.alumnos.length else 0;
    Program(b.id, b.nombre, b.descripcion, b.duracion, b.modalidad, n > 0, n)
  }

  /** On every mapped record the flag and the count agree. */
  lemma FlagAgreesWithCount(b: BackendProgram)
    ensures FromBackend(b).tieneAlumnos <==> FromBackend(b).numAlumnos > 0
  {
  }

  function MapAll(items: seq<BackendProgram>): (r: seq<Program>)
    ensures |r| == |items|
    ensures forall i :: 0 <= i < |items| ==> r[i] == FromBackend(items[i])
  {
    seq(|items|, i requires 0 <= i < |items| => FromBackend(items[i]))
  }

  /** The six built-in programs, with ids `predefinida-1` … `predefinida-6`. */
  function Predefined(): (r: seq<Program>)
    ensures |r| == 6
    ensures forall i :: 0 <= i < 6 ==> r[i] == Builtin(i + 1)
  {
    seq(6, i requires 0 <= i < 6 => Builtin(i + 1))
  }

  /** Built-in entry number `n` (1-based, as `index + 1`). Every built-in
      entry carries `tieneAlumnos: true` with `numAlumnos: 0`. */
  function Builtin(n: nat): (p: Program)
    requires 1 <= n <= 6
    ensures p.id == "predefinida-" + [('0' as int + n) as char]
    ensures p.duracion == 4 && p.modalidad == "Presencial"
    ensures p.tieneAlumnos && p.numAlumnos == 0
  {
    Program("predefinida-" + [('0' as int + n) as char], BuiltinName(n), BuiltinDescription(n),
            4, "Presencial", true, 0)
  }

  function BuiltinName(n: nat): string
    requires 1 <= n <= 6
  {
    match n
    case 1 => "Ingeniería en Sistemas Computacionales"
    case 2 => "Ingeniería en Informática"
    case 3 => "Ingeniería en Bioquímica"
    case 4 => "Contador Público"
    case 5 => "Ingeniería Civil"
    case _ => "Ingeniería en Gestión Empresarial"
  }

  function BuiltinDescription(n: nat): string
    requires 1 <= n <= 6
  {
    match n
    case 1 => "Forma profesionales capaces de diseñar, desarrollar e implementar sistemas computacionales y software para resolver problemas en diversos ámbitos."
    case 2 => "Prepara profesionales para el desarrollo de soluciones tecnológicas, gestión de sistemas de información y desarrollo de software."
    case 3 => "Forma profesionales capaces de aplicar conocimientos de química y biología para el desarrollo de procesos industriales y biotecnológicos."
    case 4 => "Prepara profesionales para la gestión financiera, contable y fiscal de organizaciones públicas y privadas."
    case 5 => "Forma profesionales para el diseño, construcción y mantenimiento de obras civiles como edificios, puentes y carreteras."
    case _ => "Prepara profesionales para la gestión y optimización de procesos empresariales, recursos y proyectos."
  }

  /** The built-in ids are pairwise distinct. */
  lemma PredefinedIdsDistinct()
    ensures forall i, j :: 0 <= i < j < 6 ==> Predefined()[i].id != Predefined()[j].id
  {
    var r := Predefined();
    forall i, j | 0 <= i < j < 6
      ensures r[i].id != r[j].id
    {
      assert r[i].id[12] != r[j].id[12];
    }
  }

  /** The built-in rows do not satisfy the flag/count agreement that mapped
      rows do: each claims students while counting none. */
  lemma PredefinedClaimStudentsWithoutCount()
    ensures forall i :: 0 <= i < 6 ==> Predefined()[i].tieneAlumnos && Predefined()[i].numAlumnos == 0
  {
  }

  /** `fetchCarreras` given the reply to its request: backend rows are used
      only when the request succeeded and the body is a non-empty array;
      every other outcome (no token, non-ok status, network failure, body not
      JSON, not an array, empty) falls back to the built-in list. */
  function Load(store: AuthService.Store, reply: AuthService.Reply<ListBody>): (r: seq<Program>)
    ensures var f := AuthService.AuthFetch(store, "http://localhost:3000/api/carreras", AuthService.NoOptions, reply);
      if f.Sent? && f.result.Ok? && reply.body.Json? && reply.body.data.ProgramList? && |reply.body.data.items| > 0
      then r == MapAll(reply.body.data.items)
      else r == Predefined()
  {
    var f := AuthService.AuthFetch(store, "http://localhost:3000/api/carreras", AuthService.NoOptions, reply);
    if f.Sent? && f.result.Ok? then
      match reply.body
      case NotJson => Predefined()
      case Json(_, ProgramList(items)) => if |items| > 0 then MapAll(items) else Predefined()
      case Json(_, NotAList) => Predefined()
    else Predefined()
  }

  /** Without a token the screen still shows the six built-in programs. */
  lemma NoTokenShowsBuiltins(reply: AuthService.Reply<ListBody>)
    ensures Load(AuthService.EmptyStore, reply) == Predefined()
  {
  }

  // --- search ------------------------------------------------------------------

  /** `duracion.toString()` for a whole number. */
  function DurationText(n: nat): (r: string)
    ensures |r| > 0
    ensures forall i :: 0 <= i < |r| ==> IsDigit(r[i])
    ensures |r| > 1 ==> r[0] != '0'
  {
    if n < 10 then [('0' as int + n) as char]
    else DurationText(n / 10) + [('0' as int + n % 10) as char]
  }

  /** The decimal value of a string of digits. */
  function DecimalValue(s: string): nat
    requires forall i :: 0 <= i < |s| ==> IsDigit(s[i])
  {
    if s == [] then 0
    else
      var last := s[|s| - 1];
      assert IsDigit(last);
      10 * DecimalValue(s[..|s| - 1]) + (last as int - '0' as int)
  }

  /** The text of a duration reads back as the same number. */
  lemma {:induction false} DurationTextValue(n: nat)
    ensures DecimalValue(DurationText(n)) == n
  {
    if n >= 10 {
      var r := DurationText(n);
      DurationTextValue(n / 10);
      assert r[..|r| - 1] == DurationText(n / 10);
    }
  }

  /** `handleSearch` stores the input lower-cased. */
  function SearchInput(input: string): (term: string)
    ensures IsLower(term)
    ensures |term| == |input|
    ensures forall i :: 0 <= i < |input| ==> term[i] == LowerChar(input[i])
  {
    Lower(input)
  }

  /** The label a row's student flag contributes to the search. */
  function StudentLabel(p: Program): string {
    if p.tieneAlumnos then "con alumnos" else "sin alumnos"
  }

  /** An empty term shows every row; otherwise a row is shown when nombre,
      descripcion or modalidad (lower-cased), the duration's text, or the
      student label contains the lower-cased term. */
  predicate Matches(p: Program, term: string) {
    if term == "" then true
    else
      var t := Lower(term);
      || Contains(Lower(p.nombre), t) || Contains(Lower(p.descripcion), t)
      || Contains(Lower(p.modalidad), t) || Contains(DurationText(p.duracion), t)
      || Contains(StudentLabel(p), t)
  }

  function FilterPrograms(xs: seq<Program>, term: string): (r: seq<Program>)
    ensures forall p :: p in r <==> p in xs && Matches(p, term)
    ensures Selection.IsSubseq(r, xs)
    ensures forall p :: multiset(r)[p] == if Matches(p, term) then multiset(xs)[p] else 0
  {
    Selection.Filter(xs, p => Matches(p, term))
  }

  lemma EmptyTermKeepsAll(xs: seq<Program>)
    ensures FilterPrograms(xs, "") == xs
  {
    Selection.FilterKeepsAll(xs, p => Matches(p, ""));
  }

  /** The student label contains "sin alumnos" exactly for rows without
      students, so searching it shows every listed row without students
      (and also any row whose other fields contain it). */
  lemma SearchByLabel(xs: seq<Program>, p: Program)
    ensures Contains(StudentLabel(p), "sin alumnos") <==> !p.tieneAlumnos
    ensures p in xs && !p.tieneAlumnos ==> p in FilterPrograms(xs, "sin alumnos")
  {
    ContainsSameLength(StudentLabel(p), "sin alumnos");
    assert Lower("sin alumnos") == "sin alumnos";
  }

  // --- selection -----------------------------------------------------------------

  /** What a selection click asks of the student roster panel. */
  datatype RosterEffect = ClearRoster | FetchRoster(carrera: string) | RosterUnchanged

  /** `handleSelectCarrera`: selecting an unselected program makes it the
      only selected one and opens its detail (loading its students when the
      program is known); clicking a selected program deselects it and closes
      the detail. */
  function SelectProgram(s: Screen, xs: seq<Program>, id: Selection.Id): (r: (Screen, RosterEffect))
    ensures id in s.selection ==> && r.0.selection == s.selection - {id}
                                  && r.0.detail.None? && r.1 == ClearRoster
    ensures id !in s.selection ==> r.0.selection == {id}
    ensures id !in s.selection && (exists p :: p in xs && p.id == id) ==>
              && r.0.detail.Some? && r.0.detail.value in xs && r.0.detail.value.id == id
              && r.1 == FetchRoster(r.0.detail.value.nombre)
    ensures id !in s.selection && (forall p :: p in xs ==> p.id != id) ==>
              r.0.detail.None? && r.1 == RosterUnchanged
    ensures r.0.bulkData == s.bulkData && r.0.bulkEditMode == s.bulkEditMode
  {
    if id in s.selection then (s.(selection := s.selection - {id}, detail := None), ClearRoster)
    else
      var found := Selection.Find(xs, (p: Program) => p.id == id);
      var effect := if found.Some? then FetchRoster(found.value.nombre) else RosterUnchanged;
      (s.(selection := {id}, detail := found), effect)
  }

  /** Once something is selected by a click on an unselected row, exactly
      one program is selected. */
  lemma SelectLeavesOne(s: Screen, xs: seq<Program>, id: Selection.Id)
    requires id !in s.selection
    ensures |SelectProgram(s, xs, id).0.selection| == 1
  {
  }


  /** `handleSelectAll`: checking selects every program's id, whether or not
      the search hides it; unchecking empties the selection. */
  function SelectAll(checked: bool, xs: seq<Program>): (r: set<Selection.Id>)
    ensures checked ==> forall id :: id in r <==> exists p :: p in xs && p.id == id
    ensures !checked ==> r == {}
  {
    Selection.SelectRows(checked, xs, (p: Program) => p.id)
  }

  /** Select-all reaches rows the search hides: a listed program the term
      filters out is still selected. */
  lemma SelectAllReachesHiddenRows(xs: seq<Program>, term: string, p: Program)
    requires p in xs && p !in FilterPrograms(xs, term)
    ensures !Matches(p, term)
    ensures p.id in SelectAll(true, xs)
  {
  }

  /** `handleDelete`: a successful delete removes only that id from the
      selection; a failed one changes nothing. */
  function AfterDelete(s: Screen, id: string, accepted: bool): (r: Screen)
    ensures accepted ==> id !in r.selection
    ensures forall x :: x != id ==> (x in r.selection <==> x in s.selection)
    ensures !accepted ==> r == s
    ensures r == s.(selection := r.selection)
  {
    if accepted then s.(selection := Selection.Prune(s.selection, id)) else s
  }

  /** `handleBulkEdit`: success leaves bulk mode, empties the four bulk fields
      and the selection; failure changes nothing. */
  function AfterBulkEdit(s: Screen, report: Selection.BatchReport): (r: Screen)
    ensures report.ok ==> && r.selection == {} && !r.bulkEditMode
                          && r.bulkData.nombre == r.bulkData.descripcion == r.bulkData.duracion
                             == r.bulkData.modalidad == ""
    ensures report.ok ==> r.detail == s.detail
    ensures !report.ok ==> r == s
  {
    if report.ok then s.(selection := {}, bulkEditMode := false, bulkData := BlankForm) else s
  }

  /** `handleBulkDelete`: success empties the selection; failure changes
      nothing. */
  function AfterBulkDelete(s: Screen, report: Selection.BatchReport): (r: Screen)
    ensures report.ok ==> r == s.(selection := {})
    ensures !report.ok ==> r == s
  {
    s.(selection := Selection.AfterBatch(s.selection, report))
  }
}

=== FILE: registration.dfy ===
/**
 * The sign-up page of `pages/Register.jsx`: the password-confirmation check,
 * the request body built from the form, and the page state on every exit of
 * the submit handler. The `register` call goes through an authentication
 * context that is not part of this model, so its outcome is a parameter:
 * `None` when it resolved, `Some(message)` when it threw with that message.
 */
module Registration {
  import opened Base

  datatype RegisterForm = RegisterForm(
    nombre: string, apellido: string, email: string, genero: string, telefono: string,
    usuario: string, password: string, confirmarPassword: string, tipoUsuario: string,
    carrera: string, especialidad: string)

  const BlankForm := RegisterForm("", "", "", "", "", "", "", "", "", "", "")

  /** The registration body; a `None` field is absent from the JSON. */
  datatype Payload = Payload(
    username: string, password: string, role: string,
    nombre: string, apellido: string, email: string, genero: string, telefono: string,
    carrera: Option<string>, especialidad: Option<string>)

  /** What the page shows: the error banner, the busy flag, and where the
      router was sent. */
  datatype Page = Page(error: string, loading: bool, navigatedTo: Option<string>)

  const Mismatch := "Las contraseñas no coinciden"
  const DashboardRoute := "/dashboard"

  /** The body sent for a form: the account fields renamed, the personal
      fields copied, carrera only for 'alumno' and especialidad only for
      'maestro'. */
  function PayloadOf(f: RegisterForm): (p: Payload)
    ensures p.username == f.usuario && p.password == f.password && p.role == f.tipoUsuario
    ensures && p.nombre == f.nombre && p.apellido == f.apellido && p.email == f.email
            && p.genero == f.genero && p.telefono == f.telefono
    ensures p.carrera.Some? <==> f.tipoUsuario == "alumno"
    ensures p.especialidad.Some? <==> f.tipoUsuario == "maestro"
    ensures p.carrera.Some? ==> p.carrera.value == f.carrera
    ensures p.especialidad.Some? ==> p.especialidad.value == f.especialidad
  {
    Payload(f.usuario, f.password, f.tipoUsuario, f.nombre, f.apellido, f.email, f.genero,
            f.telefono,
            if f.tipoUsuario == "alumno" then Some(f.carrera) else None,
            if f.tipoUsuario == "maestro" then Some(f.especialidad) else None)
  }

  /** Two forms give the same body exactly when they agree on every field
      the body carries: the confirmation is never sent, and the role decides
      which of carrera and especialidad counts. */
  lemma SamePayloadIff(f: RegisterForm, g: RegisterForm)
    ensures PayloadOf(f) == PayloadOf(g) <==>
      && f.usuario == g.usuario && f.password == g.password && f.tipoUsuario == g.tipoUsuario
      && f.nombre == g.nombre && f.apellido == g.apellido && f.email == g.email
      && f.genero == g.genero && f.telefono == g.telefono
      && (f.tipoUsuario == "alumno" ==> f.carrera == g.carrera)
      && (f.tipoUsuario == "maestro" ==> f.especialidad == g.especialidad)
  {
    if PayloadOf(f) == PayloadOf(g) {
      assert PayloadOf(f).role == PayloadOf(g).role;
      if f.tipoUsuario == "alumno" {
        assert PayloadOf(f).carrera.value == PayloadOf(g).carrera.value;
      }
      if f.tipoUsuario == "maestro" {
        assert PayloadOf(f).especialidad.value == PayloadOf(g).especialidad.value;
      }
    }
  }

  /** `handleSubmit`. Returns the page right after the handler starts, the
      page when it has finished, and the body passed to `register` if it was
      called. */
  function Submit(p: Page, f: RegisterForm, outcome: Option<string>): (r: (Page, Page, Option<Payload>))
    ensures r.0 == p.(error := "", loading := true)
    ensures !r.1.loading
    ensures r.2.None? <==> f.password != f.confirmarPassword
    ensures r.2.Some? ==> r.2.value == PayloadOf(f)
    ensures r.2.None? ==> r.1.error == Mismatch && r.1.navigatedTo == p.navigatedTo
    ensures r.2.Some? && outcome.None? ==> r.1.error == "" && r.1.navigatedTo == Some(DashboardRoute)
    ensures r.2.Some? && outcome.Some? ==> r.1.error == outcome.value && r.1.navigatedTo == p.navigatedTo
  {
    var started := p.(error := "", loading := true);
    if f.password != f.confirmarPassword then
      (started, started.(error := Mismatch, loading := false), None)
    else
      var request := PayloadOf(f);
      match outcome
      case None => (started, started.(loading := false, navigatedTo := Some(DashboardRoute)), Some(request))
      case Some(message) => (started, started.(error := message, loading := false), Some(request))
  }
}

=== FILE: selection.dfy ===
/**
 * The list logic every management screen repeats: filtering a fetched list,
 * the set of selected row ids, and the bulk fan-out that sends one request per
 * selected id and waits for all of them (`Promise.all`), folded here in order.
 */
module Selection {
  import Base

  type Id = string

  /** `a` is `b` with some elements dropped, order kept. */
  predicate IsSubseq<T(==)>(a: seq<T>, b: seq<T>)
    decreases |b|
  {
    || a == []
    || (b != [] && ((a[0] == b[0] && IsSubseq(a[1..], b[1..])) || IsSubseq(a, b[1..])))
  }

  /** `xs.filter(keep)`: the elements that pass, in their original order. */
  function Filter<T(!new)>(xs: seq<T>, keep: T -> bool): (r: seq<T>)
    ensures |r| <= |xs|
    ensures forall i :: 0 <= i < |r| ==> keep(r[i])
    ensures forall x :: x in r <==> x in xs && keep(x)
    ensures IsSubseq(r, xs)
    ensures forall x :: multiset(r)[x] == if keep(x) then multiset(xs)[x] else 0
  {
    if xs == [] then []
    else
      var rest := Filter(xs[1..], keep);
      assert xs == [xs[0]] + xs[1..];
      if keep(xs[0]) then [xs[0]] + rest
      else rest
  }

  /** A filter every element passes keeps the list as it is. */
  lemma {:induction false} FilterKeepsAll<T(!new)>(xs: seq<T>, keep: T -> bool)
    requires forall i :: 0 <= i < |xs| ==> keep(xs[i])
    ensures Filter(xs, keep) == xs
  {
    if xs != [] {
      FilterKeepsAll(xs[1..], keep);
    }
  }

  /** Filtering the filtered list again changes nothing. */
  lemma FilterIdempotent<T(!new)>(xs: seq<T>, keep: T -> bool)
    ensures Filter(Filter(xs, keep), keep) == Filter(xs, keep)
  {
    FilterKeepsAll(Filter(xs, keep), keep);
  }

  /** `xs.find(p)`: the first element that satisfies `p`, if any. */
  function Find<T>(xs: seq<T>, p: T -> bool): (r: Base.Option<T>)
    ensures r.None? <==> forall i :: 0 <= i < |xs| ==> !p(xs[i])
    ensures r.Some? ==> exists i :: 0 <= i < |xs| && xs[i] == r.value && p(xs[i])
                          && forall j :: 0 <= j < i ==> !p(xs[j])
  {
    if xs == [] then Base.None
    else if p(xs[0]) then Base.Some(xs[0])
    else
      var r := Find(xs[1..], p);
      assert forall j :: 1 <= j < |xs| ==> xs[j] == xs[1..][j - 1];
      r
  }

  /** The set of ids listed in `ids` (`new Set(ids)`). */
  function SetOf(ids: seq<Id>): (r: set<Id>)
    ensures forall x :: x in r <==> x in ids
  {
    set x | x in ids
  }

  /** `ids` lists every element of `sel` exactly once (`Array.from(sel)`). */
  predicate Enumerates(ids: seq<Id>, sel: set<Id>) {
    && SetOf(ids) == sel
    && (forall i, j :: 0 <= i < j < |ids| ==> ids[i] != ids[j])
  }

  /** The checkbox handler of a row: adds `id` when absent, removes it when
      present. */
  function Toggle(sel: set<Id>, id: Id): (r: set<Id>)
    ensures id in r <==> id !in sel
    ensures forall x :: x != id ==> (x in r <==> x in sel)
  {
    if id in sel then sel - {id} else sel + {id}
  }

  /** Toggling the same id twice restores the selection. */
  lemma ToggleTwice(sel: set<Id>, id: Id)
    ensures Toggle(Toggle(sel, id), id) == sel
  {
  }

  /** A click on a row: a click on the row's own checkbox is left to the
      checkbox handler, so it does not toggle twice; any other click toggles
      the row. */
  function RowClick(sel: set<Id>, id: Id, onCheckbox: bool): (r: set<Id>)
    ensures onCheckbox ==> r == sel
    ensures !onCheckbox ==> (id in r <==> id !in sel)
    ensures forall x :: x != id ==> (x in r <==> x in sel)
  {
    if onCheckbox then sel else Toggle(sel, id)
  }

  /** The header checkbox: checked selects exactly the given ids, unchecked
      selects nothing. */
  function SelectAll(checked: bool, ids: seq<Id>): (r: set<Id>)
    ensures checked ==> forall x :: x in r <==> x in ids
    ensures !checked ==> r == {}
  {
    if checked then SetOf(ids) else {}
  }

  /** `xs.map(x => x._id)`: one id per row, in row order. */
  function IdsOf<T>(xs: seq<T>, id: T -> Id): (r: seq<Id>)
    ensures |r| == |xs|
    ensures forall i :: 0 <= i < |xs| ==> r[i] == id(xs[i])
  {
    seq(|xs|, i requires 0 <= i < |xs| => id(xs[i]))
  }

  /** The header checkbox over a list of rows: checked selects exactly the
      ids of those rows, unchecked selects nothing. */
  function SelectRows<T>(checked: bool, xs: seq<T>, id: T -> Id): (r: set<Id>)
    ensures checked ==> forall x :: x in r <==> exists a :: a in xs && id(a) == x
    ensures !checked ==> r == {}
  {
    var ids := IdsOf(xs, id);
    assert forall a :: a in xs ==> id(a) in ids by {
      forall a | a in xs
        ensures id(a) in ids
      {
        var i :| 0 <= i < |xs| && xs[i] == a;
        assert ids[i] == id(a);
      }
    }
    SelectAll(checked, ids)
  }

  /** After a successful single delete: only `id` leaves the selection. */
  function Prune(sel: set<Id>, id: Id): (r: set<Id>)
    ensures id !in r
    ensures forall x :: x != id ==> (x in r <==> x in sel)
  {
    sel - {id}
  }

  /** What a fan-out did: the requests it issued (one per id, all issued
      before any is awaited), the ids the backend accepted, and whether
      `Promise.all` resolved. */
  datatype BatchReport = BatchReport(requested: seq<Id>, applied: set<Id>, ok: bool)

  /** The fan-out over `ids`, where `succeeds[i]` is the backend's verdict on
      the request for `ids[i]`. Nothing is rolled back: an accepted id stays
      applied even when another request fails. */
  function Batch(ids: seq<Id>, succeeds: seq<bool>): (r: BatchReport)
    requires |succeeds| == |ids|
    ensures r.requested == ids
    ensures r.ok <==> forall i :: 0 <= i < |ids| ==> succeeds[i]
    ensures forall x :: x in r.applied <==> exists i :: 0 <= i < |ids| && ids[i] == x && succeeds[i]
  {
    if ids == [] then BatchReport([], {}, true)
    else
      var rest := Batch(ids[1..], succeeds[1..]);
      assert forall i :: 0 < i < |ids| ==> ids[i] == ids[1..][i - 1] && succeeds[i] == succeeds[1..][i - 1];
      BatchReport([ids[0]] + rest.requested,
                  (if succeeds[0] then {ids[0]} else {}) + rest.applied,
                  succeeds[0] && rest.ok)
  }

  /** A successful batch applied every id it requested. */
  lemma BatchOkAppliesAll(ids: seq<Id>, succeeds: seq<bool>)
    requires |succeeds| == |ids|
    requires Batch(ids, succeeds).ok
    ensures Batch(ids, succeeds).applied == SetOf(ids)
  {
    var r := Batch(ids, succeeds);
    forall x | x in ids
      ensures x in r.applied
    {
      var i :| 0 <= i < |ids| && ids[i] == x;
      assert succeeds[i];
    }
  }

  /** The selection after a bulk edit or delete: emptied only when the whole
      batch succeeded, untouched otherwise. */
  function AfterBatch(sel: set<Id>, report: BatchReport): (r: set<Id>)
    ensures report.ok ==> r == {}
    ensures !report.ok ==> r == sel
  {
    if report.ok then {} else sel
  }

  /** One id accepted and another rejected: the batch fails, the selection
      stays, and the accepted id is applied regardless. */
  lemma PartialFailureKeepsApplied(sel: set<Id>, ids: seq<Id>, succeeds: seq<bool>, i: nat, j: nat)
    requires |succeeds| == |ids| && i < |ids| && j < |ids|
    requires succeeds[i] && !succeeds[j]
    ensures var r := Batch(ids, succeeds);
      && !r.ok && ids[i] in r.applied
      && AfterBatch(sel, r) == sel
  {
  }
}

=== FILE: students.dfy ===
/**
 * The student screen of `pages/alumnos.jsx`: search, row selection, the
 * create and edit forms, and what single and bulk operations do to the
 * selection. A backend verdict (`accepted`, a `BatchReport`) is a parameter.
 */
module Students {
  import opened Base
  import opened Text
  import Selection

  datatype Student = Student(id: string, nombre: string, apellido: string, genero: string,
                             telefono: string, email: string, carrera: string)

  /** The create/edit form and the bulk-edit form share this shape. */
  datatype StudentForm = StudentForm(nombre: string, apellido: string, genero: string,
                                     telefono: string, email: string, carrera: string)

  const BlankForm := StudentForm("", "", "masculino", "", "", "")

  /** The body of the create request. */
  datatype StudentPayload = StudentPayload(nombre: string, apellido: string, genero: string,
                                           telefono: string, email: string, carrera: string,
                                           estado: string)

  /** The screen state this model follows. */
  datatype Screen = Screen(selection: set<Selection.Id>, bulkEditMode: bool, bulkData: StudentForm,
                           editingId: Option<string>, form: StudentForm, showCreate: bool)

  // --- search --------------------------------------------------------------

  /** A student is shown when nombre, apellido or email contains the
      lower-cased term, ignoring case. */
  predicate Matches(a: Student, term: string) {
    var t := Lower(term);
    Contains(Lower(a.nombre), t) || Contains(Lower(a.apellido), t) || Contains(Lower(a.email), t)
  }

  function FilterStudents(xs: seq<Student>, term: string): (r: seq<Student>)
    ensures forall a :: a in r <==> a in xs && Matches(a, term)
    ensures Selection.IsSubseq(r, xs)
    ensures forall a :: multiset(r)[a] == if Matches(a, term) then multiset(xs)[a] else 0
  {
    Selection.Filter(xs, a => Matches(a, term))
  }

  /** The empty term shows every student, in order. */
  lemma EmptyTermKeepsAll(xs: seq<Student>)
    ensures FilterStudents(xs, "") == xs
  {
    forall i | 0 <= i < |xs|
      ensures Matches(xs[i], "")
    {
      ContainsEmpty(Lower(xs[i].nombre));
    }
    Selection.FilterKeepsAll(xs, a => Matches(a, ""));
  }

  /** The search ignores the case of the term. */
  lemma SearchIgnoresCase(a: Student, term: string)
    ensures Matches(a, term) <==> Matches(a, Lower(term))
  {
    LowerIsLower(term);
  }

  // --- selection -------------------------------------------------------------

  /** `handleSelectAll`: checking selects the ids of the filtered list and
      nothing else; unchecking empties the selection. */
  function SelectAll(checked: bool, xs: seq<Student>, term: string): (r: set<Selection.Id>)
    ensures checked ==> forall id :: id in r <==> exists a :: a in FilterStudents(xs, term) && a.id == id
    ensures !checked ==> r == {}
  {
    Selection.SelectRows(checked, FilterStudents(xs, term), (a: Student) => a.id)
  }

  // --- forms -------------------------------------------------------------------

  /** nombre, apellido, email and carrera must be non-empty. */
  predicate HasRequired(f: StudentForm) {
    f.nombre != "" && f.apellido != "" && f.email != "" && f.carrera != ""
  }

  /** `handleCreate` up to the request: no request without the required
      fields; otherwise the trimmed text fields, the chosen genero and carrera,
      and estado 'activo'. */
  function CreateRequest(f: StudentForm): (r: Option<StudentPayload>)
    ensures r.None? <==> !HasRequired(f)
    ensures r.Some? ==> && r.value.nombre == Trim(f.nombre) && r.value.apellido == Trim(f.apellido)
                        && r.value.telefono == Trim(f.telefono) && r.value.email == Trim(f.email)
                        && r.value.genero == f.genero && r.value.carrera == f.carrera
                        && r.value.estado == "activo"
  {
    if !HasRequired(f) then None
    else Some(StudentPayload(Trim(f.nombre), Trim(f.apellido), f.genero, Trim(f.telefono),
                             Trim(f.email), f.carrera, "activo"))
  }

  /** `handleUpdate` up to the request: the same check, and the form is sent
      as it is. */
  function UpdateRequest(f: StudentForm): (r: Option<StudentForm>)
    ensures r.None? <==> !HasRequired(f)
    ensures r.Some? ==> r.value == f
  {
    if HasRequired(f) then Some(f) else None
  }

  /** `handleCreate` as a whole: the request it sends (if any) and the screen
      afterwards; `accepted` is the backend's verdict. A rejected or unsent
      create leaves the screen as it was. */
  function SubmitCreate(s: Screen, accepted: bool): (r: (Screen, Option<StudentPayload>))
    ensures r.1 == CreateRequest(s.form)
    ensures r.1.Some? && accepted ==> r.0 == s.(form := BlankForm, showCreate := false)
    ensures r.1.None? || !accepted ==> r.0 == s
  {
    var request := CreateRequest(s.form);
    if request.Some? && accepted then (s.(form := BlankForm, showCreate := false), request)
    else (s, request)
  }

  /** `handleUpdate` as a whole: on success the edit closes and the form is
      blank again. */
  function SubmitUpdate(s: Screen, accepted: bool): (r: (Screen, Option<(Option<string>, StudentForm)>))
    ensures r.1.None? <==> !HasRequired(s.form)
    ensures r.1.Some? ==> r.1.value == (s.editingId, s.form)
    ensures r.1.Some? && accepted ==> r.0 == s.(editingId := None, form := BlankForm)
    ensures r.1.None? || !accepted ==> r.0 == s
  {
    match UpdateRequest(s.form)
    case None => (s, None)
    case Some(f) =>
      if accepted then (s.(editingId := None, form := BlankForm), Some((s.editingId, f)))
      else (s, Some((s.editingId, f)))
  }

  function FormOf(a: Student): StudentForm {
    StudentForm(a.nombre, a.apellido, a.genero, a.telefono, a.email, a.carrera)
  }

  /** `handleEdit`: remembers the id, and copies the six fields of the first
      student with that id into the form when there is one. */
  function Edit(s: Screen, xs: seq<Student>, id: string): (r: Screen)
    ensures r.editingId == Some(id)
    ensures (exists a :: a in xs && a.id == id) ==>
              exists i :: && 0 <= i < |xs| && xs[i].id == id
                          && (forall j :: 0 <= j < i ==> xs[j].id != id)
                          && r.form == FormOf(xs[i])
    ensures (forall a :: a in xs ==> a.id != id) ==> r.form == s.form
    ensures r == s.(editingId := r.editingId, form := r.form)
  {
    match Selection.Find(xs, (a: Student) => a.id == id)
    case None => s.(editingId := Some(id))
    case Some(b) => s.(editingId := Some(id), form := FormOf(b))
  }

  // --- deletes and bulk operations ------------------------------------------------

  /** `handleDelete`: a successful delete removes only that id from the
      selection; a failed one changes nothing. */
  function AfterDelete(s: Screen, id: string, accepted: bool): (r: Screen)
    ensures accepted ==> id !in r.selection
    ensures forall x :: x != id ==> (x in r.selection <==> x in s.selection)
    ensures !accepted ==> r == s
    ensures r == s.(selection := r.selection)
  {
    if accepted then s.(selection := Selection.Prune(s.selection, id)) else s
  }

  /** `handleBulkEdit`: success leaves bulk mode, resets the bulk form and
      empties the selection; failure changes nothing. */
  function AfterBulkEdit(s: Screen, report: Selection.BatchReport): (r: Screen)
    ensures report.ok ==> r.selection == {} && !r.bulkEditMode && r.bulkData == BlankForm
    ensures report.ok ==> r.form == s.form && r.editingId == s.editingId && r.showCreate == s.showCreate
    ensures !report.ok ==> r == s
  {
    if report.ok then s.(selection := {}, bulkEditMode := false, bulkData := BlankForm) else s
  }

  /** `handleBulkDelete`: success empties the selection; failure changes
      nothing. */
  function AfterBulkDelete(s: Screen, report: Selection.BatchReport): (r: Screen)
    ensures report.ok ==> r == s.(selection := {})
    ensures !report.ok ==> r == s
  {
    s.(selection := Selection.AfterBatch(s.selection, report))
  }

  /** The bulk fan-out over the selection: one request per selected id, and
      the selection emptied only when all of them succeeded. */
  lemma BulkDeleteClearsOnlyOnSuccess(s: Screen, ids: seq<Selection.Id>, succeeds: seq<bool>)
    requires Selection.Enumerates(ids, s.selection) && |succeeds| == |ids|
    ensures var report := Selection.Batch(ids, succeeds);
      && Selection.SetOf(report.requested) == s.selection
      && (AfterBulkDelete(s, report).selection == {} <==> report.ok || s.selection == {})
  {
  }
}

=== FILE: teachers.dfy ===
/**
 * The teacher screen of `pages/maestros.jsx`: search, row selection, the edit
 * prefill, who sees the create/edit area, and what single and bulk operations
 * do to the selection and the bulk form.
 */
module Teachers {
  import opened Base
  import opened Text
  import Selection
  import AuthService

  datatype Teacher = Teacher(id: string, nombre: string, apellido: string, genero: string,
                             telefono: string, email: string, especialidad: string)

  /** The create/edit form and the bulk-edit form share this shape. */
  datatype TeacherForm = TeacherForm(nombre: string, apellido: string, genero: string,
                                     telefono: string, email: string, especialidad: string)

  const BlankForm := TeacherForm("", "", "masculino", "", "", "")

  datatype Screen = Screen(selection: set<Selection.Id>, bulkEditMode: bool, bulkData: TeacherForm,
                           editingId: Option<string>, form: TeacherForm, showCreate: bool)

  /** A teacher is shown when nombre, apellido, email or especialidad contains
      the lower-cased term, ignoring case. */
  predicate Matches(m: Teacher, term: string) {
    var t := Lower(term);
    || Contains(Lower(m.nombre), t) || Contains(Lower(m.apellido), t)
    || Contains(Lower(m.email), t) || Contains(Lower(m.especialidad), t)
  }

  function FilterTeachers(xs: seq<Teacher>, term: string): (r: seq<Teacher>)
    ensures forall m :: m in r <==> m in xs && Matches(m, term)
    ensures Selection.IsSubseq(r, xs)
    ensures forall m :: multiset(r)[m] == if Matches(m, term) then multiset(xs)[m] else 0
  {
    Selection.Filter(xs, m => Matches(m, term))
  }

  /** The empty term shows every teacher, in order. */
  lemma EmptyTermKeepsAll(xs: seq<Teacher>)
    ensures FilterTeachers(xs, "") == xs
  {
    forall i | 0 <= i < |xs|
      ensures Matches(xs[i], "")
    {
      ContainsEmpty(Lower(xs[i].nombre));
    }
    Selection.FilterKeepsAll(xs, m => Matches(m, ""));
  }

  /** A match on the specialty alone is enough. */
  lemma SpecialtyAloneMatches(xs: seq<Teacher>, m: Teacher, term: string)
    requires m in xs && Contains(Lower(m.especialidad), Lower(term))
    ensures m in FilterTeachers(xs, term)
    ensures multiset(FilterTeachers(xs, term))[m] == multiset(xs)[m]
  {
  }


  /** `handleSelectAll`: checking selects the ids of the filtered list and
      nothing else; unchecking empties the selection. */
  function SelectAll(checked: bool, xs: seq<Teacher>, term: string): (r: set<Selection.Id>)
    ensures checked ==> forall id :: id in r <==> exists m :: m in FilterTeachers(xs, term) && m.id == id
    ensures !checked ==> r == {}
  {
    Selection.SelectRows(checked, FilterTeachers(xs, term), (m: Teacher) => m.id)
  }

  predicate IsAdmin(user: Option<AuthService.User>) {
    user.Some? && user.value.role == "admin"
  }

  /** The create button and forms are rendered only for an admin with
      nothing selected. */
  predicate ShowsCreateArea(user: Option<AuthService.User>, sel: set<Selection.Id>) {
    IsAdmin(user) && |sel| == 0
  }

  /** How the selection operations move the create area: checking the header
      box over a non-empty result hides it, unchecking shows it again to an
      admin, and after a bulk delete an admin sees it exactly when the batch
      succeeded or nothing was selected. */
  lemma CreateAreaFollowsSelection(user: Option<AuthService.User>, s: Screen, xs: seq<Teacher>,
                                   term: string, report: Selection.BatchReport)
    ensures FilterTeachers(xs, term) != [] ==> !ShowsCreateArea(user, SelectAll(true, xs, term))
    ensures ShowsCreateArea(user, SelectAll(false, xs, term)) <==> IsAdmin(user)
    ensures ShowsCreateArea(user, AfterBulkDelete(s, report).selection)
            <==> IsAdmin(user) && (report.ok || s.selection == {})
  {
    var shown := FilterTeachers(xs, term);
    if shown != [] {
      assert shown[0] in shown;
      assert shown[0].id in SelectAll(true, xs, term);
    }
  }

  function FormOf(m: Teacher): TeacherForm {
    TeacherForm(m.nombre, m.apellido, m.genero, m.telefono, m.email, m.especialidad)
  }

  /** `handleEdit`: remembers the id and copies all six fields of the first
      teacher with that id into the form; an unknown id leaves the form. */
  function Edit(s: Screen, xs: seq<Teacher>, id: string): (r: Screen)
    ensures r.editingId == Some(id)
    ensures (exists m :: m in xs && m.id == id) ==>
              exists i :: && 0 <= i < |xs| && xs[i].id == id
                          && (forall j :: 0 <= j < i ==> xs[j].id != id)
                          && r.form == FormOf(xs[i])
    ensures (forall m :: m in xs ==> m.id != id) ==> r.form == s.form
    ensures r == s.(editingId := r.editingId, form := r.form)
  {
    match Selection.Find(xs, (m: Teacher) => m.id == id)
    case None => s.(editingId := Some(id))
    case Some(m) => s.(editingId := Some(id), form := FormOf(m))
  }

  /** `handleDelete`: a successful delete removes only that id from the
      selection; a failed one changes nothing. */
  function AfterDelete(s: Screen, id: string, accepted: bool): (r: Screen)
    ensures accepted ==> id !in r.selection
    ensures forall x :: x != id ==> (x in r.selection <==> x in s.selection)
    ensures !accepted ==> r == s
    ensures r == s.(selection := r.selection)
  {
    if accepted then s.(selection := Selection.Prune(s.selection, id)) else s
  }

  /** `handleBulkEdit`: success leaves bulk mode, resets the bulk form to its
      defaults (genero 'masculino', every other field empty) and empties the
      selection; failure changes nothing. */
  function AfterBulkEdit(s: Screen, report: Selection.BatchReport): (r: Screen)
    ensures report.ok ==> && r.selection == {} && !r.bulkEditMode
                          && r.bulkData.genero == "masculino"
                          && r.bulkData.nombre == r.bulkData.apellido == r.bulkData.telefono
                             == r.bulkData.email == r.bulkData.especialidad == ""
    ensures report.ok ==> r.form == s.form && r.editingId == s.editingId && r.showCreate == s.showCreate
    ensures !report.ok ==> r == s
  {
    if report.ok then s.(selection := {}, bulkEditMode := false, bulkData := BlankForm) else s
  }

  /** `handleBulkDelete`: success empties the selection; failure changes
      nothing. */
  function AfterBulkDelete(s: Screen, report: Selection.BatchReport): (r: Screen)
    ensures report.ok ==> r == s.(selection := {})
    ensures !report.ok ==> r == s
  {
    s.(selection := Selection.AfterBatch(s.selection, report))
  }
}

=== FILE: text.dfy ===
/**
 * String primitives the screens rely on: ASCII lower-casing, the JavaScript
 * whitespace class (`\s`, `String.prototype.trim`), substring search
 * (`String.prototype.includes`), removal of non-digits (`replace(/\D/g, '')`)
 * and the two validation patterns of the student intake form.
 */
module Text {

  /** JavaScript `\s`: the WhiteSpace and LineTerminator code points, which are
      also exactly what `trim` removes. */
  predicate IsSpace(c: char) {
    || c == ' ' || c == '\t' || c == '\n' || c == '\r'
    || c == '\U{000B}' || c == '\U{000C}' || c == '\U{00A0}' || c == '\U{1680}'
    || ('\U{2000}' <= c <= '\U{200A}')
    || c == '\U{2028}' || c == '\U{2029}' || c == '\U{202F}' || c == '\U{205F}'
    || c == '\U{3000}' || c == '\U{FEFF}'
  }

  /** JavaScript `\d`: the ASCII digits only. */
  predicate IsDigit(c: char) {
    '0' <= c <= '9'
  }

  predicate IsUpper(c: char) {
    'A' <= c <= 'Z'
  }

  function LowerChar(c: char): (r: char)
    ensures !IsUpper(r)
    ensures IsUpper(c) ==> r as int == c as int + 32
    ensures !IsUpper(c) ==> r == c
  {
    if IsUpper(c) then (c as int + 32) as char else c
  }

  /** `toLowerCase`, restricted to ASCII letters. */
  function Lower(s: string): (r: string)
    ensures |r| == |s|
    ensures forall i :: 0 <= i < |r| ==> r[i] == LowerChar(s[i])
  {
    seq(|s|, i requires 0 <= i < |s| => LowerChar(s[i]))
  }

  predicate IsLower(s: string) {
    forall i :: 0 <= i < |s| ==> !IsUpper(s[i])
  }

  /** Lower-casing yields lower-case text and is idempotent. */
  lemma LowerIsLower(s: string)
    ensures IsLower(Lower(s))
    ensures Lower(Lower(s)) == Lower(s)
  {
  }

  predicate AllSpace(s: string) {
    forall i :: 0 <= i < |s| ==> IsSpace(s[i])
  }

  function TrimStart(s: string): (r: string)
    ensures |r| <= |s| && r == s[|s| - |r|..]
    ensures AllSpace(s[..|s| - |r|])
    ensures |r| > 0 ==> !IsSpace(r[0])
  {
    if |s| > 0 && IsSpace(s[0]) then TrimStart(s[1..]) else s
  }

  function TrimEnd(s: string): (r: string)
    ensures |r| <= |s| && r == s[..|r|]
    ensures AllSpace(s[|r|..])
    ensures |r| > 0 ==> !IsSpace(r[|r| - 1])
  {
    if |s| > 0 && IsSpace(s[|s| - 1]) then TrimEnd(s[..|s| - 1]) else s
  }

  /** `trim`: the contiguous middle of `s` left once the whitespace at both
      ends is gone; it is empty exactly when `s` is blank. */
  function Trim(s: string): (r: string)
    ensures r == [] <==> AllSpace(s)
    ensures |r| > 0 ==> !IsSpace(r[0]) && !IsSpace(r[|r| - 1])
    ensures OccursAt(s, r, |s| - |TrimStart(s)|)
  {
    TrimIsInfix(s);
    TrimEmptyIffBlank(s);
    TrimEnd(TrimStart(s))
  }

  lemma TrimIsInfix(s: string)
    ensures OccursAt(s, TrimEnd(TrimStart(s)), |s| - |TrimStart(s)|)
  {
    var a := TrimStart(s);
    var n := |s| - |a|;
    var r := TrimEnd(a);
    PrefixOfSuffix(s, n, |r|);
  }

  lemma PrefixOfSuffix(s: string, n: nat, m: nat)
    requires n + m <= |s|
    ensures s[n..][..m] == s[n..n + m]
  {
  }

  lemma TrimEmptyIffBlank(s: string)
    ensures TrimEnd(TrimStart(s)) == [] <==> AllSpace(s)
  {
    var a := TrimStart(s);
    var n := |s| - |a|;
    var r := TrimEnd(a);
    if r == [] {
      assert s == s[..n];
    } else {
      assert s[n] == a[0] == r[0];
    }
  }

  /** Trimmed text is contained in the text it came from. */
  lemma TrimContained(s: string)
    ensures Contains(s, Trim(s))
  {
    ContainsIff(s, Trim(s));
  }

  /** Trimming text that has no space at either end changes nothing. */
  lemma TrimUnpadded(s: string)
    requires |s| > 0 ==> !IsSpace(s[0]) && !IsSpace(s[|s| - 1])
    ensures Trim(s) == s
  {
  }

  /** `needle` occurs in `hay` starting at position `i`. */
  predicate OccursAt(hay: string, needle: string, i: int) {
    0 <= i <= |hay| - |needle| && hay[i..i + |needle|] == needle
  }

  /** `hay.includes(needle)`, computed by scanning from the left. */
  predicate Contains(hay: string, needle: string)
    decreases |hay|
  {
    if |needle| > |hay| then false
    else if hay[..|needle|] == needle then true
    else Contains(hay[1..], needle)
  }

  /** The scan agrees with the positional definition of substring. */
  lemma {:induction false} ContainsIff(hay: string, needle: string)
    ensures Contains(hay, needle) <==> exists i :: OccursAt(hay, needle, i)
    decreases |hay|
  {
    if |needle| > |hay| {
    } else if hay[..|needle|] == needle {
      assert OccursAt(hay, needle, 0);
    } else {
      ContainsIff(hay[1..], needle);
      if Contains(hay[1..], needle) {
        var i :| OccursAt(hay[1..], needle, i);
        assert hay[1..][i..i + |needle|] == hay[i + 1..i + 1 + |needle|];
        assert OccursAt(hay, needle, i + 1);
      } else {
        forall i | OccursAt(hay, needle, i)
          ensures false
        {
          assert i != 0;
          assert hay[1..][i - 1..i - 1 + |needle|] == hay[i..i + |needle|];
          assert OccursAt(hay[1..], needle, i - 1);
        }
      }
    }
  }

  /** Between strings of the same length, containment is equality. */
  lemma ContainsSameLength(hay: string, needle: string)
    requires |hay| == |needle|
    ensures Contains(hay, needle) <==> hay == needle
  {
    if hay != needle && hay != [] {
      assert !Contains(hay[1..], needle);
    }
  }

  /** The empty string occurs in every string. */
  lemma ContainsEmpty(hay: string)
    ensures Contains(hay, "")
  {
    ContainsIff(hay, "");
    assert OccursAt(hay, "", 0);
  }

  /** `s.replace(/\D/g, '')`: the digits of `s`, in order. */
  function Digits(s: string): (r: string)
    ensures |r| <= |s|
    ensures forall i :: 0 <= i < |r| ==> IsDigit(r[i])
    ensures forall c :: c in r <==> c in s && IsDigit(c)
  {
    if s == [] then []
    else if IsDigit(s[0]) then [s[0]] + Digits(s[1..])
    else Digits(s[1..])
  }

  /** A string of digits loses nothing when non-digits are removed. */
  lemma {:induction false} DigitsOfDigits(s: string)
    requires forall i :: 0 <= i < |s| ==> IsDigit(s[i])
    ensures Digits(s) == s
  {
    if s != [] {
      DigitsOfDigits(s[1..]);
    }
  }

  /** Removing non-digits distributes over concatenation. */
  lemma {:induction false} DigitsAppend(a: string, b: string)
    ensures Digits(a + b) == Digits(a) + Digits(b)
    decreases |a|
  {
    if a == [] {
      assert a + b == b;
    } else {
      assert (a + b)[0] == a[0] && (a + b)[1..] == a[1..] + b;
      DigitsAppend(a[1..], b);
    }
  }

  /** Blank text holds no digits. */
  lemma {:induction false} DigitsOfBlank(s: string)
    requires AllSpace(s)
    ensures Digits(s) == []
    decreases |s|
  {
    if s != [] {
      assert !IsDigit(s[0]);
      DigitsOfBlank(s[1..]);
    }
  }

  /** Cutting leading whitespace removes no digit. */
  lemma DigitsTrimStart(s: string)
    ensures Digits(TrimStart(s)) == Digits(s)
  {
    var a := TrimStart(s);
    var n := |s| - |a|;
    assert s == s[..n] + a;
    DigitsAppend(s[..n], a);
    DigitsOfBlank(s[..n]);
  }

  /** Cutting trailing whitespace removes no digit. */
  lemma DigitsTrimEnd(s: string)
    ensures Digits(TrimEnd(s)) == Digits(s)
  {
    var r := TrimEnd(s);
    assert s == r + s[|r|..];
    DigitsAppend(r, s[|r|..]);
    DigitsOfBlank(s[|r|..]);
  }

  /** Trimming never removes a digit, so the phone check reads the same
      digits before and after `trim`. */
  lemma TrimKeepsDigits(s: string)
    ensures Digits(TrimEnd(TrimStart(s))) == Digits(s)
  {
    DigitsTrimStart(s);
    DigitsTrimEnd(TrimStart(s));
  }

  /** `/^\d{10,}$/.test(s.replace(/\D/g, ''))`: at least ten digits anywhere. */
  predicate ValidPhone(s: string) {
    |Digits(s)| >= 10
  }

  /** A character the email pattern allows in each of its three parts. */
  predicate EmailChar(c: char) {
    !IsSpace(c) && c != '@'
  }

  predicate EmailPart(s: string) {
    forall i :: 0 <= i < |s| ==> EmailChar(s[i])
  }

  /** The pattern `^[^\s@]+@[^\s@]+\.[^\s@]+$` read as a split of `s` at an
      `@` (position i) and a later `.` (position j), all three parts non-empty. */
  ghost predicate EmailShape(s: string) {
    exists i, j :: EmailSplit(s, i, j)
  }

  ghost predicate EmailSplit(s: string, i: int, j: int) {
    && 0 < i && i + 1 < j && j + 1 < |s|
    && s[i] == '@' && s[j] == '.'
    && EmailPart(s[..i]) && EmailPart(s[i + 1..j]) && EmailPart(s[j + 1..])
  }

  /** Position of the first `c` in `s`, or |s| when there is none. */
  function IndexOf(s: string, c: char): (r: nat)
    ensures r <= |s|
    ensures r < |s| ==> s[r] == c
    ensures forall k :: 0 <= k < r ==> s[k] != c
  {
    if s == [] then 0
    else if s[0] == c then 0
    else 1 + IndexOf(s[1..], c)
  }

  /** The email check written without backtracking: the local part runs up to
      the first `@`, and the rest holds a `.` strictly inside it. */
  predicate ValidEmail(s: string) {
    var i := IndexOf(s, '@');
    && 0 < i < |s|
    && EmailPart(s[..i])
    && var rest := s[i + 1..];
    && EmailPart(rest)
    && |rest| >= 3
    && '.' in rest[1..|rest| - 1]
  }

  /** The backtracking-free check accepts exactly the strings the pattern does. */
  lemma ValidEmailIff(s: string)
    ensures ValidEmail(s) <==> EmailShape(s)
  {
    if ValidEmail(s) {
      ValidEmailHasShape(s);
    }
    if EmailShape(s) {
      var i, j :| EmailSplit(s, i, j);
      ShapeIsValidEmail(s, i, j);
    }
  }

  lemma ValidEmailHasShape(s: string)
    requires ValidEmail(s)
    ensures EmailShape(s)
  {
    var i := IndexOf(s, '@');
    var rest := s[i + 1..];
    var mid := rest[1..|rest| - 1];
    var d := IndexOf(mid, '.');
    var j := i + 2 + d;
    assert s[j] == '.';
    assert s[i + 1..j] == rest[..d + 1];
    assert s[j + 1..] == rest[d + 2..];
    assert EmailSplit(s, i, j);
  }

  lemma ShapeIsValidEmail(s: string, i: int, j: int)
    requires EmailSplit(s, i, j)
    ensures ValidEmail(s)
  {
    assert IndexOf(s, '@') == i;
    var rest := s[i + 1..];
    forall k | 0 <= k < |rest|
      ensures EmailChar(rest[k])
    {
      if k < j - i - 1 {
        assert rest[k] == s[i + 1..j][k];
      } else if k > j - i - 1 {
        assert rest[k] == s[j + 1..][k - (j - i)];
      }
    }
    assert rest[1..|rest| - 1][j - i - 2] == '.';
  }

  /** An address the pattern accepts has no whitespace at either end, so
      trimming it before sending changes nothing. */
  lemma ValidEmailIsTrimmed(s: string)
    requires ValidEmail(s)
    ensures Trim(s) == s
  {
    var i := IndexOf(s, '@');
    var rest := s[i + 1..];
    assert s[0] == s[..i][0];
    assert s[|s| - 1] == rest[|rest| - 1];
    TrimUnpadded(s);
  }
}

=== FILE: users.dfy ===
/**
 * The user-administration screen of `pages/Dashboard.jsx`: search, row
 * selection, the single-selection edit, the create/edit form and the bulk
 * delete with its empty-selection guard.
 */
module Users {
  import opened Base
  import opened Text
  import Selection
  import opened AuthService

  datatype UserForm = UserForm(username: string, password: string, role: string)

  const BlankForm := UserForm("", "", "user")

  datatype Screen = Screen(selection: set<Selection.Id>, editingId: Option<string>,
                           form: UserForm, showCreate: bool)

  // --- search and selection ----------------------------------------------------

  /** A user is shown when username, role or id contains the lower-cased
      term, ignoring case. */
  predicate Matches(u: User, term: string) {
    var t := Lower(term);
    Contains(Lower(u.username), t) || Contains(Lower(u.role), t) || Contains(Lower(u.id), t)
  }

  function FilterUsers(xs: seq<User>, term: string): (r: seq<User>)
    ensures forall u :: u in r <==> u in xs && Matches(u, term)
    ensures Selection.IsSubseq(r, xs)
    ensures forall u :: multiset(r)[u] == if Matches(u, term) then multiset(xs)[u] else 0
  {
    Selection.Filter(xs, u => Matches(u, term))
  }

  lemma EmptyTermKeepsAll(xs: seq<User>)
    ensures FilterUsers(xs, "") == xs
  {
    forall i | 0 <= i < |xs|
      ensures Matches(xs[i], "")
    {
      ContainsEmpty(Lower(xs[i].username));
    }
    Selection.FilterKeepsAll(xs, u => Matches(u, ""));
  }

  /** Any user of the list can be found by its id alone. */
  lemma FoundById(xs: seq<User>, u: User)
    requires u in xs
    ensures u in FilterUsers(xs, u.id)
  {
    ContainsIff(Lower(u.id), Lower(u.id));
    assert OccursAt(Lower(u.id), Lower(u.id), 0);
  }

  /** `handleSelectAll`: checking selects every user's id, shown or not;
      unchecking empties the selection. */
  function SelectAll(checked: bool, xs: seq<User>): (r: set<Selection.Id>)
    ensures checked ==> forall id :: id in r <==> exists u :: u in xs && u.id == id
    ensures !checked ==> r == {}
  {
    Selection.SelectRows(checked, xs, (u: User) => u.id)
  }

  // --- bulk delete ---------------------------------------------------------------

  /** `handleDeleteUsers`: nothing is sent for an empty selection; otherwise
      one DELETE per selected id, and the selection is emptied only when all
      of them succeeded. Returns the screen and the ids a DELETE was sent for. */
  function DeleteUsers(s: Screen, ids: seq<Selection.Id>, succeeds: seq<bool>): (r: (Screen, seq<Selection.Id>))
    requires Selection.Enumerates(ids, s.selection) && |succeeds| == |ids|
    ensures |s.selection| == 0 ==> r.1 == [] && r.0 == s
    ensures |s.selection| > 0 ==> Selection.SetOf(r.1) == s.selection && |r.1| == |s.selection|
    ensures r.0.selection == {} <==> |s.selection| == 0 || forall i :: 0 <= i < |ids| ==> succeeds[i]
    ensures |s.selection| > 0 && (exists i :: 0 <= i < |ids| && !succeeds[i]) ==> r.0 == s
    ensures r.0 == s.(selection := r.0.selection)
  {
    if |s.selection| == 0 then (s, [])
    else
      var report := Selection.Batch(ids, succeeds);
      assert |ids| == |s.selection| by { DistinctCard(ids, s.selection); }
      (s.(selection := Selection.AfterBatch(s.selection, report)), report.requested)
  }

  /** A list without repeats has as many elements as the set it lists. */
  lemma {:induction false} DistinctCard(ids: seq<Selection.Id>, sel: set<Selection.Id>)
    requires Selection.Enumerates(ids, sel)
    ensures |ids| == |sel|
    decreases |ids|
  {
    if ids != [] {
      var rest := ids[1..];
      assert Selection.Enumerates(rest, sel - {ids[0]}) by {
        forall x
          ensures x in rest <==> x in sel - {ids[0]}
        {
          if x in rest {
            var k :| 0 <= k < |rest| && rest[k] == x;
            assert ids[k + 1] == x;
          }
          if x in sel - {ids[0]} {
            assert x in ids;
            var k :| 0 <= k < |ids| && ids[k] == x;
            assert k != 0;
            assert rest[k - 1] == x;
          }
        }
      }
      DistinctCard(rest, sel - {ids[0]});
    }
  }

  // --- edit and the form ------------------------------------------------------------

  /** The edit button is rendered only when exactly one user is selected. */
  predicate EditOffered(sel: set<Selection.Id>) {
    |sel| == 1
  }

  /** The edit button's handler: with exactly one user selected and found in
      the list, opens the edit with username and role copied and an empty
      password; in every other case the screen stays as it was. */
  function StartEdit(s: Screen, xs: seq<User>): (r: Screen)
    ensures !EditOffered(s.selection) ==> r == s
    ensures (forall u :: u in xs ==> u.id !in s.selection) ==> r == s
    ensures r != s ==> && EditOffered(s.selection) && r.editingId.Some?
                       && r.editingId.value in s.selection
                       && exists u :: u in xs && u.id == r.editingId.value
                                   && r.form == UserForm(u.username, "", u.role)
    ensures EditOffered(s.selection) && (exists u :: u in xs && u.id in s.selection) ==>
              exists i :: && 0 <= i < |xs| && xs[i].id in s.selection
                          && (forall j :: 0 <= j < i ==> xs[j].id !in s.selection)
                          && r == s.(editingId := Some(xs[i].id),
                                     form := UserForm(xs[i].username, "", xs[i].role))
    ensures r.selection == s.selection
  {
    if !EditOffered(s.selection) then s
    else
      match Selection.Find(xs, (u: User) => u.id in s.selection)
      case None => s
      case Some(u) => s.(editingId := Some(u.id), form := UserForm(u.username, "", u.role))
  }

  /** The password field is required when no edit is open and optional
      while one is (`required={!editingId}`); both forms share the field. */
  predicate PasswordRequired(editing: bool) {
    !editing
  }

  /** The browser's `required` checks: the form is submitted only with a
      username, and with a password unless an edit is open. */
  predicate CanSubmit(f: UserForm, editing: bool) {
    f.username != "" && (!PasswordRequired(editing) || f.password != "")
  }

  /** `handleCreate`: sends the form as it is; success closes the create form
      and resets the fields to username '', password '', role 'user'. The
      create form stays open when an edit is opened, and then its password
      is no longer required. */
  function SubmitCreate(s: Screen, accepted: bool): (r: (Screen, Option<UserForm>))
    ensures r.1.Some? <==> CanSubmit(s.form, s.editingId.Some?)
    ensures r.1.Some? ==> r.1.value == s.form
    ensures r.1.Some? && s.editingId.None? ==> r.1.value.password != ""
    ensures r.1.Some? && accepted ==> !r.0.showCreate && r.0.form == UserForm("", "", "user")
    ensures r.1.None? || !accepted ==> r.0 == s
    ensures r.0 == s.(showCreate := r.0.showCreate, form := r.0.form)
  {
    if !CanSubmit(s.form, s.editingId.Some?) then (s, None)
    else if accepted then (s.(showCreate := false, form := BlankForm), Some(s.form))
    else (s, Some(s.form))
  }

  /** `handleUpdate`: sends the form unchanged, an empty password included;
      success closes the edit and resets the fields. */
  function SubmitUpdate(s: Screen, accepted: bool): (r: (Screen, Option<(Option<string>, UserForm)>))
    ensures r.1.Some? <==> CanSubmit(s.form, true)
    ensures r.1.Some? ==> r.1.value == (s.editingId, s.form)
    ensures r.1.Some? && accepted ==> r.0.editingId.None? && r.0.form == UserForm("", "", "user")
    ensures r.1.None? || !accepted ==> r.0 == s
    ensures r.0 == s.(editingId := r.0.editingId, form := r.0.form)
  {
    if !CanSubmit(s.form, true) then (s, None)
    else if accepted then (s.(editingId := None, form := BlankForm), Some((s.editingId, s.form)))
    else (s, Some((s.editingId, s.form)))
  }

  /** An edit opened from the selection submits with the empty password it
      was given: the field is not dropped from the request. */
  lemma EditSendsEmptyPassword(s: Screen, xs: seq<User>, u: User, accepted: bool)
    requires EditOffered(s.selection) && u in xs && u.id in s.selection
    requires forall v :: v in xs ==> v.username != ""
    ensures var e := StartEdit(s, xs);
      && e.editingId.Some? && e.editingId.value in s.selection
      && var r := SubmitUpdate(e, accepted);
         r.1.Some? && r.1.value == (e.editingId, e.form) && r.1.value.1.password == ""
  {
    var e := StartEdit(s, xs);
    var i :| && 0 <= i < |xs| && xs[i].id in s.selection
             && e == s.(editingId := Some(xs[i].id), form := UserForm(xs[i].username, "", xs[i].role));
    assert xs[i] in xs;
  }

  /** With the create form open, opening an edit on a selected user fills
      the shared form with an empty password; submitting the create form then
      sends a create without a password. */
  lemma CreateWhileEditingSendsEmptyPassword(s: Screen, xs: seq<User>, u: User, accepted: bool)
    requires EditOffered(s.selection) && u in xs && u.id in s.selection
    requires forall v :: v in xs ==> v.username != ""
    ensures var r := SubmitCreate(StartEdit(s, xs), accepted);
      r.1.Some? && r.1.value.password == ""
  {
    var e := StartEdit(s, xs);
    var i :| && 0 <= i < |xs| && xs[i].id in s.selection
             && e == s.(editingId := Some(xs[i].id), form := UserForm(xs[i].username, "", xs[i].role));
    assert xs[i] in xs;
  }
}
